=== FILE: README.md ===
# NVIDIA driver check: a Dafny model

`nvidia_check.py` is a command-line tool. It checks whether an NVIDIA driver is installed. When none is, it offers to download and install the newest Linux release. When one is, it compares the installed version against the newest release and offers an update. Most of the program is subprocess and network plumbing. This project models its three pieces of pure logic as Dafny functions, and proves what they promise:

- **The version comparator** (`compare_versions`, module `Version`). A version string is read as the tuple of integers spelled by its maximal runs of ASCII digits. Two tuples are ordered as Python orders tuples. The result is 1, 0 or -1.
- **The text parsers and formatters**:
  - the first whitespace-separated token of the `latest.txt` index (`DriverInfo.LatestVersion`);
  - the `memory.total, memory.used, memory.free` line split on `", "` (`DriverInfo.ParseMemory`);
  - the release URL and the installer file name and path (module `Artifact`).

  The Python string primitives they use are written out in `Text`:
  - `str.strip()`, with the exact `str.isspace` character class;
  - `str.lower()`;
  - `str.split()`;
  - `str.split(sep)`.

  `Runs` holds the "maximal runs of a character class" notion. It is shared by `re.findall(r'\d+')` and `str.split()`.
- **The orchestration** of `install_driver`, `_download_and_install_driver`, `install_fresh_driver`, `check_for_updates` and `run_check` (module `Orchestrator`).
  - Every outside effect is an input, collected in an `Oracles` record:
    - the exit code and output of `nvidia-smi`;
    - the fetched index body;
    - the two typed answers;
    - whether the download succeeded;
    - how `sudo <installer>` ended.
  - Every flow returns its result together with the ordered list of effects it performed: fetch, prompt, download, privileged run.
  - The contracts therefore state when a prompt is shown, when the download and the privileged installer are reached, and what comes back.
  - `InstallsOnly` pins the version: every download and every privileged run of a flow is the installer of the version that flow offered, which in `install_fresh_driver`, `check_for_updates` and `run_check` is the fetched latest version.
  - A consent invariant, `Guarded`, says that every privileged run comes right after its own affirmative confirmation, so one "yes" allows one run, and after a download to exactly the path that is run. It is proved for `_download_and_install_driver` and for every flow that reaches the installer through it: the offer in `install_fresh_driver`, `install_fresh_driver` itself, `check_for_updates` and `run_check`. `install_driver` on its own runs whatever path it is given, so the invariant is stated for it only together with the download that precedes it (`Orchestrator.DownloadThenInstallGuarded`).

`VersionFormat` is an independent partner of the comparator. It renders an integer tuple as a dotted string and proves that `version_tuple` reads it back. `VersionExamples` checks the comparator on five concrete pairs. Three are built around `580.105.08`, the version in the index-format comment at `nvidia_check.py:106`: a newer minor release, a shorter but smaller tuple, and a different separator with a leading zero. The other two are two digit-free strings, and a digit-free installed version against `1`.

Two behaviours of the code that are easy to miss:

- **Digit-free versions.** There is no rule that makes a digit-free version compare equal to everything. A string without digits is the empty tuple. It equals another digit-free string, but ranks below every string that contains a digit: `compare_versions("abc", "1") == 1`. The model follows the code (`Version.DigitFreeRanksLowest`, `VersionExamples.ExampleDigitFreeCurrent`).
- **`int()` can raise.** CPython (3.11 and later) limits `int()` on a decimal string to 4300 digits by default (`sys.get_int_max_str_digits()`). A longer digit run makes `int()` raise `ValueError`. So the `except (ValueError, AttributeError): return 0` branch of `compare_versions` is reachable with `str` arguments. The model keeps this as `Version.IntMaxStrDigits` and `Version.WithinLimit`: when either side has a digit run longer than 4300, the result is 0. `AttributeError` cannot arise, because both arguments are strings.

## Model

| member | source | states |
|---|---|---|
| Version.VersionTuple | nvidia_check.py:122-125 | the tuple has one entry per digit run, and entry k is the decimal value of run k; the runs are the maximal ones (`Version.DigitRuns`, `Runs.RunsUnique`) |
| Version.Values | nvidia_check.py:125 | `tuple(map(int, parts))`: same length as the runs, entry k is `int` of run k |
| Version.Decimal | nvidia_check.py:125 | `int()` of a digit run is 0 exactly when every digit is `0`; that it reads a canonical spelling back is `VersionFormat.DecimalString`, and that leading zeros do not matter is `Version.DecimalLeadingZero` |
| Version.DigitRuns | nvidia_check.py:124 | `re.findall(r'\d+', v)` yields non-empty runs made only of digits, which concatenated are exactly the string's digits in order; that they are maximal, and not a finer split, is `Runs.RunsAreMaximal` with `Runs.RunsUnique` |
| Version.CompareVersions | nvidia_check.py:117-138 | the result is 1, 0 or -1; it is 1 exactly when the current tuple is smaller, 0 exactly when the tuples are equal, -1 exactly when the latest tuple is smaller; it is 0 when `int()` refuses a digit run longer than 4300 digits |
| Version.CompareMatchesLexOrder | nvidia_check.py:131-136 | 1 and -1 agree with an independent definition of lexicographic order: a common prefix, then a smaller element or the end of the shorter tuple |
| Version.TupleLessIff | nvidia_check.py:131 | Python's recursive tuple `<` is equivalent to "equal up to k, then shorter or smaller at k" |
| Version.TupleTrichotomy | nvidia_check.py:131-136 | exactly one of less, equal and greater holds, so the three branches are exhaustive and exclusive |
| Version.TupleTransitive | nvidia_check.py:131 | tuple order is transitive |
| Version.CompareReflexive | nvidia_check.py:133-134 | every version compares 0 with itself |
| Version.CompareAntisymmetric | nvidia_check.py:131-136 | swapping the arguments negates the result |
| Version.CompareTransitive | nvidia_check.py:131-132 | "newer than" is transitive |
| Version.CompareSameTuple | nvidia_check.py:133-134 | two strings with the same integer tuple compare 0 |
| Version.DecimalLeadingZero | nvidia_check.py:125 | a leading zero does not change the integer `int()` reads |
| Version.SeparatorsIgnored | nvidia_check.py:122-125 | replacing non-digit characters by other non-digits changes neither the tuple nor any comparison |
| Version.DigitFreeTuple | nvidia_check.py:124-125 | the tuple is empty exactly when the string has no digit |
| Version.DigitFreeRanksLowest | nvidia_check.py:131-134 | two digit-free strings compare 0, and a digit-free string ranks below every string with a digit, in both argument orders |
| VersionFormat.DecimalString | nvidia_check.py:125 | the decimal spelling is all digits without a leading zero, and `int()` reads it back as the same number |
| VersionFormat.RenderRoundTrip | nvidia_check.py:122-125 | reading a dotted rendering of any tuple gives the tuple back |
| VersionFormat.CompareRendered | nvidia_check.py:131-134 | renderings compare exactly as their tuples do |
| VersionExamples.ExampleNewerMinor | nvidia_check.py:131-132 | `"580.105.08"` against `"580.110.00"` gives 1 |
| VersionExamples.ExampleShorterButSmaller | nvidia_check.py:135-136 | `"580.105.08"` against `"1"` gives -1: elements count before length |
| VersionExamples.ExampleFormattingIgnored | nvidia_check.py:133-134 | `"580.105.08"` and `"580-105-8"` compare 0 |
| VersionExamples.ExampleBothDigitFree | nvidia_check.py:133-134 | `"abc"` and `"xyz"` compare 0 |
| VersionExamples.ExampleDigitFreeCurrent | nvidia_check.py:131-132 | `"abc"` against `"1"` gives 1 |
| Runs.Runs | nvidia_check.py:124 | every run is non-empty and made of class characters |
| Runs.RunsSkip | nvidia_check.py:124 | a character outside the class starts no run and is dropped |
| Runs.RunsCons | nvidia_check.py:124 | a non-empty class block ended by an outside character is one whole run, followed by the runs of the rest |
| Runs.RunsSingle | nvidia_check.py:124 | a non-empty string made only of class characters is a single run |
| Runs.RunsAreMaximal | nvidia_check.py:124 | `Runs` obeys the four equations of a maximal-run split: nothing from the empty string, outside characters dropped, a block up to an outside character taken whole, a whole class string taken as one run |
| Runs.RunsUnique | nvidia_check.py:124 | every split obeying those equations is `Runs`, so a finer split such as one run per character is ruled out |
| Runs.RunsKeepContents | nvidia_check.py:124 | the runs, concatenated, are exactly the class characters of the string, in order |
| Runs.RunsEmptyIff | nvidia_check.py:109 | there is no run exactly when no character is in the class |
| Runs.RunsIgnoreSeparators | nvidia_check.py:124 | the runs depend only on the class characters and their positions |
| Text.Strip | nvidia_check.py:105 | `strip()` returns the slice between leading and trailing whitespace; it is empty exactly when the string is all whitespace |
| Text.StripPadded | nvidia_check.py:105 | stripping whitespace padding off a value that neither starts nor ends with whitespace gives the value back |
| Text.IsYesIff | nvidia_check.py:192-194 | `strip().lower() == 'yes'` holds exactly for the stripped answer "yes" in any letter case |
| Text.Words | nvidia_check.py:108 | `split()` gives non-empty words without whitespace which, concatenated, are exactly the string's non-whitespace characters in order; they are the maximal such runs by `Runs.RunsAreMaximal` and `Runs.RunsUnique` with the non-whitespace class |
| Text.Split | nvidia_check.py:85 | `split(', ')` gives at least one part, joining the parts with the separator gives the string back, and no part contains the separator |
| Text.FindFrom | nvidia_check.py:85 | finds the leftmost occurrence of the separator, or reports that none exists |
| Text.SplitFirst | nvidia_check.py:85 | a first occurrence right after `a` cuts off `a` |
| DriverInfo.QueryValue | nvidia_check.py:38-51 | a query gives a value exactly when `nvidia-smi` ran and exited with 0; the value is non-empty (passes `if not current_version`, line 266) exactly when the exit was 0 and the output is not all whitespace; it is the output slice after the leading whitespace, everything after it is whitespace, and it neither starts nor ends with whitespace |
| DriverInfo.QueryRoundTrip | nvidia_check.py:47-48 | output that is a value padded with whitespace reads back as exactly that value |
| DriverInfo.SmiAvailableMatchesQuery | nvidia_check.py:25-51 | `check_nvidia_smi` passes exactly when the same run would give `get_driver_version` a value: a completed run with exit code 0; a missing `nvidia-smi` or a timeout fails both |
| DriverInfo.ParseMemory | nvidia_check.py:85-89 | a parsed memory line is its three fields joined by `", "`, in order, and no field contains the separator |
| DriverInfo.ParseMemoryComplete | nvidia_check.py:85-89 | every stripped line made of three separator-free fields joined by `", "` parses to exactly those fields |
| DriverInfo.MemoryRoundTrip | nvidia_check.py:85-89 | formatting three fields and parsing the line gives them back |
| DriverInfo.GetGpuInfo | nvidia_check.py:53-94 | the name, CUDA and memory queries run in order, and the first one that raises leaves every later field unset; when the name query did not raise, the CUDA field is the CUDA query's value (unset when that query raised or exited non-zero); the memory fields are set together, only when the query exited 0 and the line split into three |
| DriverInfo.GpuInfoRoundTrip | nvidia_check.py:53-94 | when the three queries print a name, a CUDA version and a memory line of three separator-free fields, each followed by whitespace, the info holds exactly those values |
| DriverInfo.LatestVersion | nvidia_check.py:96-115 | the result is `None` exactly when there is no body or the body is all whitespace; otherwise it is the non-empty non-whitespace token that starts after the leading whitespace and ends at whitespace or at the end of the body |
| DriverInfo.FirstWord | nvidia_check.py:105-110 | the first word of the stripped body sits right after the leading whitespace |
| Artifact.DownloadUrl | nvidia_check.py:140-142 | the URL is the base, `/`, the version, `/`, and the installer file name; when the version has no `/`, its last segment is the file name |
| Artifact.DownloadUrlReadBack | nvidia_check.py:140-142 | the version can be read back from its URL: the URL's length fixes the version's length, and the version is the slice right after the base and `/` |
| Artifact.InstallerFilename | nvidia_check.py:231 | the installer name is `NVIDIA-Linux-x86_64-`, the version and `.run`, and the version can be read back from between them |
| Artifact.PathJoin | nvidia_check.py:232 | `os.path.join` of two components: an absolute second part replaces the first; otherwise the result is the first part, at most one added character, then the second part, with a `/` before the second part whenever the first is non-empty and no `/` added when the first is empty or already ends with one |
| Artifact.DriverPath | nvidia_check.py:230-232 | the installer path is the installer file name directly inside the temporary directory (the directory, an optional `/`, the name), and its last segment is the installer file name, the same as the URL's |
| Artifact.LastSegmentAfterSlash | nvidia_check.py:142 | the last segment of `x/t` is `t` when `t` has no `/` |
| Artifact.DownloadUrlInjective | nvidia_check.py:140-142 | different versions are downloaded from different URLs |
| Orchestrator.InstallDriver | nvidia_check.py:186-224 | the confirmation prompt always comes first and `sudo path` runs at most once after it, exactly when the answer is "yes" after strip and lower; the result is true exactly when it was confirmed and the installer exited with 0, and false on a decline, a non-zero exit, a timeout or any other error |
| Orchestrator.InstallSucceeded | nvidia_check.py:205-224 | once `sudo` was started, success is exactly exit code 0; a non-zero exit, a timeout and any other exception are failures |
| Orchestrator.DownloadAndInstall | nvidia_check.py:226-239 | the download of the version's URL to its path always comes first; success needs a successful download, a confirmation and exit code 0; the consent invariant holds; every download and privileged run is of that version's installer |
| Orchestrator.DownloadThenInstallGuarded | nvidia_check.py:234-235 | a download followed by `install_driver` on the downloaded file obeys the consent invariant |
| Orchestrator.ConfirmedRunGuarded | nvidia_check.py:192-208 | a download, an affirmative confirmation and then one privileged run of the downloaded file obey the consent invariant |
| Orchestrator.DownloadAndInstallEffects | nvidia_check.py:234-239 | the download always happens; the confirmation prompt appears exactly when it succeeded; the privileged run happens exactly when, in addition, the answer was yes |
| Orchestrator.OfferInstall | nvidia_check.py:254-261 | the offer prompt comes first; only a "yes" leads to the download; success needs every later step to succeed; whatever is downloaded and run is the installer of the offered version, at its path in the temporary directory |
| Orchestrator.OfferInstallEffects | nvidia_check.py:254-261 | the download happens exactly when the offer was accepted; the installation prompt appears exactly when, in addition, the download succeeded, so a declined offer asks nothing more; the privileged run happens exactly when, in addition, the download succeeded and the install was confirmed |
| Orchestrator.FetchThenOffer | nvidia_check.py:247-261 | a fetch followed by the offer keeps the consent invariant and installs only the offered version |
| Orchestrator.FetchThenOfferEffects | nvidia_check.py:247-261 | a fetch followed by the offer prompts, downloads, asks for installation and runs the installer exactly as the offer alone does |
| Orchestrator.InstallFresh | nvidia_check.py:241-261 | the latest version is always fetched; without one the flow returns false before any prompt; success needs a known version, two yeses, a successful download and exit code 0; whatever is downloaded and run is the installer of the fetched latest version |
| Orchestrator.InstallFreshEffects | nvidia_check.py:247-261 | the offer is shown exactly when the latest version is known; the installation prompt appears exactly when the offer was also accepted and the download succeeded; download and privileged run happen exactly under the accepted answers and a successful download |
| Orchestrator.CheckForUpdates | nvidia_check.py:263-298 | an unknown or empty installed version stops the flow before any request; an unknown latest version stops it after the fetch; the consent invariant holds; whatever is downloaded and run is the installer of the fetched latest version |
| Orchestrator.CheckForUpdatesEffects | nvidia_check.py:283-298 | the flow prompts exactly when the comparison is 1, so a comparison of 0 or -1 means no prompt and no download; it downloads exactly when, in addition, the offer was accepted, and asks for installation exactly when, further, the download succeeded |
| Orchestrator.CheckForUpdatesStatus | nvidia_check.py:265-298 | which of the six endings is reached, in terms of the two versions, the comparison and the answers; an attempt succeeds exactly under a successful download, a confirmation and exit code 0 |
| Orchestrator.RunCheck | nvidia_check.py:300-350 | the exit code is 0 or 1, and it is 1 exactly when `nvidia-smi` is unavailable and the fresh install did not succeed; with a driver, the update check runs unless skipped; the consent invariant holds; whatever is downloaded and run is the installer of the fetched latest version |
| Orchestrator.PrefixKeeps | nvidia_check.py:254-261 | putting a fetch or an offer prompt in front of a guarded effect list keeps it guarded |
| Orchestrator.PrefixInstallsOnly | nvidia_check.py:254-261 | putting a fetch or an offer prompt in front keeps every download and privileged run on the same version |
| Orchestrator.PrefixObservations | nvidia_check.py:254-261 | putting a fetch or an offer prompt in front adds no download, no confirmation prompt and no privileged run |

## Left out

- Running `nvidia-smi` and `sudo`, with their timeouts. Their results are inputs: a `Probe` (exit code and output, or an exception) and an `InstallOutcome` (exit code, timeout, other error).
- The network: `urlopen`, headers, timeouts and UTF-8 decoding. The fetched index is an `Option<string>`, `None` for any failure.
- `download_driver`: the chunked read loop, file writing, `os.chmod`, the progress percentage and the size in MB. These are I/O and floating-point display. Its outcome is the boolean `Oracles.downloadOk`.
- The address of the `latest.txt` index (`nvidia_check.py:22`) and the manual download page named in messages. The fetched body is an input, so the address it comes from plays no part, and messages are not modelled.
- `tempfile.TemporaryDirectory`: its creation and cleanup. The directory name is an input.
- Every `print`, the banner, and `argparse`/`main`. `run_check`'s display-only calls to `get_driver_version` and `get_gpu_info` are also left out. They have no effect on its result; `GetGpuInfo` models the second on its own.
- `input()` reaching end of file, and exceptions other than those the source catches, such as a `KeyboardInterrupt` at a prompt.
- Version.IsDigit: Python's `\d` also matches non-ASCII Unicode decimal digits. The model matches only `0`–`9`.
- Text.LowerChar: `str.lower()` also lowers non-ASCII letters. The model lowers only `A`–`Z`. This does not change which answers count as "yes", because no non-ASCII character lowers to `y`, `e` or `s`.
- Orchestrator.Oracles: each prompt has one answer for the whole run. That is enough, because each flow asks each question at most once.

=== FILE: artifact.dfy ===
/**
 Where a driver release is published and where its installer is put:
 the download base, `get_download_url`, and the installer file
 name and path of `_download_and_install_driver`.
 */
module Artifact {

  /** `NVIDIA_LINUX_DOWNLOAD_BASE`: releases live in one directory per version below it. */
  const DownloadBase: string := "https://download.nvidia.com/XFree86/Linux-x86_64"

  /**
   The installer file name for `version`: a fixed prefix and suffix around
   the version, which can be read back from the name.
   */
  function InstallerFilename(version: string): (name: string)
    ensures |name| == |version| + 24
    ensures name[..20] == "NVIDIA-Linux-x86_64-" && name[|name| - 4..] == ".run"
    ensures name[20..|name| - 4] == version
  {
    "NVIDIA-Linux-x86_64-" + version + ".run"
  }

  /** The text after the last `/` of a URL or path (all of it when there is none). */
  function LastSegment(s: string): (r: string)
    ensures '/' !in r
    ensures |r| <= |s| && r == s[|s| - |r|..]
    ensures |r| < |s| ==> s[|s| - |r| - 1] == '/'
  {
    if |s| == 0 || s[|s| - 1] == '/' then ""
    else LastSegment(s[..|s| - 1]) + [s[|s| - 1]]
  }

  /**
   `get_download_url`: the release directory of `version` below the base,
   and in it the installer file. When the version holds no `/`, the URL's
   last segment is the installer file name.
   */
  function DownloadUrl(version: string): (url: string)
    ensures url == DownloadBase + "/" + version + "/" + InstallerFilename(version)
    ensures '/' !in version ==> LastSegment(url) == InstallerFilename(version)
  {
    var url := DownloadBase + "/" + version + "/NVIDIA-Linux-x86_64-" + version + ".run";
    assert url == (DownloadBase + "/" + version) + "/" + InstallerFilename(version);
    if '/' !in version then
      FilenameHasNoSlash(version);
      LastSegmentAfterSlash(DownloadBase + "/" + version, InstallerFilename(version));
      url
    else url
  }

  /**
   `os.path.join(a, b)` on POSIX, for two components. An absolute `b`
   replaces `a`. Otherwise the result starts with `a` and ends with `b`,
   with at most one character between them; `b` follows a `/` whenever `a`
   is non-empty, and no `/` is added when `a` is empty or already ends
   with one.
   */
  function PathJoin(a: string, b: string): (r: string)
    ensures |b| > 0 && b[0] == '/' ==> r == b
    ensures !(|b| > 0 && b[0] == '/') ==>
      && |a| + |b| <= |r| <= |a| + |b| + 1
      && r[..|a|] == a && r[|r| - |b|..] == b
    ensures !(|b| > 0 && b[0] == '/') && |a| > 0 ==> r[|r| - |b| - 1] == '/'
    ensures !(|b| > 0 && b[0] == '/') && (|a| == 0 || a[|a| - 1] == '/') ==> |r| == |a| + |b|
  {
    if |b| > 0 && b[0] == '/' then b
    else if |a| == 0 || a[|a| - 1] == '/' then a + b
    else a + "/" + b
  }

  /**
   `driver_path` of `_download_and_install_driver`: the installer file name
   inside the temporary directory. It lies under that directory, and when
   the version holds no `/` its last segment is the installer file name,
   the same as the download URL's.
   */
  function DriverPath(tempDir: string, version: string): (path: string)
    ensures |tempDir| <= |path| && path[..|tempDir|] == tempDir
    ensures path == tempDir + InstallerFilename(version) || path == tempDir + "/" + InstallerFilename(version)
    ensures '/' !in version ==> LastSegment(path) == InstallerFilename(version)
    ensures '/' !in version ==> LastSegment(path) == LastSegment(DownloadUrl(version))
  {
    var f := InstallerFilename(version);
    assert f[0] == 'N';
    var path := PathJoin(tempDir, f);
    if '/' !in version then
      FilenameHasNoSlash(version);
      if |tempDir| == 0 || tempDir[|tempDir| - 1] == '/' then
        LastSegmentAfterLastSlash(tempDir, f);
        path
      else
        LastSegmentAfterSlash(tempDir, f);
        path
    else path
  }

  lemma FilenameHasNoSlash(version: string)
    requires '/' !in version
    ensures '/' !in InstallerFilename(version)
  {
  }

  /** The last segment of `x + "/" + t` is `t` when `t` holds no `/`. */
  lemma {:induction false} LastSegmentAfterSlash(x: string, t: string)
    requires '/' !in t
    ensures LastSegment(x + "/" + t) == t
    decreases |t|
  {
    var s := x + "/" + t;
    if |t| == 0 {
      assert s[|s| - 1] == '/';
    } else {
      assert s[..|s| - 1] == x + "/" + t[..|t| - 1];
      LastSegmentAfterSlash(x, t[..|t| - 1]);
      assert t == t[..|t| - 1] + [t[|t| - 1]];
    }
  }

  /** The same when `x` is empty or already ends with `/`. */
  lemma LastSegmentAfterLastSlash(x: string, t: string)
    requires '/' !in t
    requires |x| == 0 || x[|x| - 1] == '/'
    ensures LastSegment(x + t) == t
  {
    if |x| == 0 {
      LastSegmentWhole(t);
      assert x + t == t;
    } else {
      var y := x[..|x| - 1];
      assert x + t == y + "/" + t;
      LastSegmentAfterSlash(y, t);
    }
  }

  lemma {:induction false} LastSegmentWhole(t: string)
    requires '/' !in t
    ensures LastSegment(t) == t
    decreases |t|
  {
    if |t| > 0 {
      LastSegmentWhole(t[..|t| - 1]);
      assert t == t[..|t| - 1] + [t[|t| - 1]];
    }
  }

  /**
   The version can be read back from its URL: the URL's length fixes the
   version's length, and the version is the slice right after the base.
   */
  lemma DownloadUrlReadBack(version: string)
    ensures |DownloadUrl(version)| == |DownloadBase| + 26 + 2 * |version|
    ensures DownloadUrl(version)[|DownloadBase| + 1..|DownloadBase| + 1 + |version|] == version
  {
    var head, f := DownloadBase + "/", InstallerFilename(version);
    Regroup(head + version, "/", f);
    SliceAfter(head, version, "/" + f);
  }

  /** Concatenation regrouped, to keep the long base literal out of the proof. */
  lemma Regroup(p: string, q: string, r: string)
    ensures p + q + r == p + (q + r)
  {
  }

  /** In `a + m + b`, the slice after `a` of the length of `m` is `m`. */
  lemma SliceAfter(a: string, m: string, b: string)
    ensures |a + m + b| == |a| + |m| + |b|
    ensures (a + m + b)[|a|..|a| + |m|] == m
  {
  }

  /** Different versions are downloaded from different URLs. */
  lemma DownloadUrlInjective(v: string, w: string)
    requires DownloadUrl(v) == DownloadUrl(w)
    ensures v == w
  {
    DownloadUrlReadBack(v);
    DownloadUrlReadBack(w);
  }
}

=== FILE: driver_info.dfy ===
/**
 What the tool reads about the installed driver and the published one:
 the `nvidia-smi` queries (`check_nvidia_smi`, `get_driver_version`,
 `get_gpu_info`) and the first token of the remote `latest.txt` index
 (`get_latest_driver_version`). The processes and the HTTP request
 themselves are outside the model; their results are inputs.
 */
module DriverInfo {
  import opened Wrappers
  import opened Text
  import Runs

  /**
   How one `subprocess.run(['nvidia-smi', ...], timeout=5)` ended: it
   completed with an exit code and captured standard output, or it raised
   `FileNotFoundError` (no `nvidia-smi`) or `TimeoutExpired`.
   */
  datatype Probe = Completed(exitCode: int, stdout: string) | Raised

  /** `check_nvidia_smi`: `nvidia-smi --version` ran and exited with 0. */
  predicate SmiAvailable(p: Probe) {
    p.Completed? && p.exitCode == 0
  }

  /**
   `check_nvidia_smi` and the value queries agree on failure: the check
   passes exactly when the same run would give a value, and a missing
   `nvidia-smi` or a timeout fails both.
   */
  lemma SmiAvailableMatchesQuery(p: Probe)
    ensures SmiAvailable(p) <==> QueryValue(p).Some?
    ensures p.Raised? ==> !SmiAvailable(p) && QueryValue(p).None?
  {
  }

  /**
   One single-field query (`get_driver_version`, the name and CUDA queries
   of `get_gpu_info`): the stripped output when the command exited with 0.

   There is a value exactly when the command exited with 0. It is the
   stretch of the output that starts after the leading whitespace and is
   followed only by whitespace, and it neither starts nor ends with
   whitespace. It is truthy (non-empty) exactly when, in addition, the
   output is not all whitespace: the test `if not current_version` of
   `check_for_updates` also rejects a blank output.
   */
  function QueryValue(p: Probe): (r: Option<string>)
    ensures r.None? <==> p.Raised? || p.exitCode != 0
    ensures Truthy(r) <==> SmiAvailable(p) && !Runs.All(p.stdout, IsSpace)
    ensures r.Some? ==>
      var out := p.stdout;
      var i := Leading(out);
      && i + |r.value| <= |out| && out[i..i + |r.value|] == r.value
      && (forall k :: i + |r.value| <= k < |out| ==> IsSpace(out[k]))
    ensures r.Some? && |r.value| > 0 ==> !IsSpace(r.value[0]) && !IsSpace(r.value[|r.value| - 1])
  {
    if SmiAvailable(p) then Some(Strip(p.stdout)) else None
  }

  /**
   A query whose output is a value padded with whitespace (the trailing
   newline `nvidia-smi` prints, say) gives back exactly that value.
   */
  lemma QueryRoundTrip(pre: string, v: string, post: string)
    requires Runs.All(pre, IsSpace) && Runs.All(post, IsSpace)
    requires |v| == 0 || (!IsSpace(v[0]) && !IsSpace(v[|v| - 1]))
    ensures QueryValue(Completed(0, pre + v + post)) == Some(v)
  {
    StripPadded(pre, v, post);
  }

  /** Python's truth test `if value:` on an optional string. */
  predicate Truthy(v: Option<string>) {
    v.Some? && |v.value| > 0
  }

  // ---------------------------------------------------------------------
  // Memory line
  // ---------------------------------------------------------------------

  /** The three fields of `memory.total,memory.used,memory.free`. */
  datatype MemoryInfo = MemoryInfo(total: string, used: string, free: string)

  const MemorySep: string := ", "

  /** The memory line as `nvidia-smi` prints it: the three fields joined by `", "`. */
  function FormatMemory(m: MemoryInfo): string {
    m.total + MemorySep + m.used + MemorySep + m.free
  }

  /**
   The memory split of `get_gpu_info`: the stripped output split on `", "`
   gives the three fields only when it has exactly three parts. A parsed
   line is the three fields joined back, and no field holds the separator.
   */
  function ParseMemory(out: string): (r: Option<MemoryInfo>)
    ensures r.Some? ==> Strip(out) == FormatMemory(r.value)
    ensures r.Some? ==>
      && !Contains(r.value.total, MemorySep)
      && !Contains(r.value.used, MemorySep)
      && !Contains(r.value.free, MemorySep)
  {
    var parts := Split(Strip(out), MemorySep);
    if |parts| == 3 then
      JoinThree(parts, MemorySep);
      Some(MemoryInfo(parts[0], parts[1], parts[2]))
    else None
  }

  lemma JoinThree(parts: seq<string>, sep: string)
    requires |parts| == 3
    ensures Join(parts, sep) == parts[0] + sep + parts[1] + sep + parts[2]
  {
    assert parts[1..][1..] == [parts[2]];
    assert Join(parts[1..], sep) == parts[1] + sep + parts[2];
  }

  /**
   In `a + ", " + rest`, when `a` holds no `", "`, the first occurrence of
   the separator is the one right after `a`: an occurrence starting at the
   last character of `a` would need a space where the separator's comma is.
   */
  lemma NoSeparatorBefore(a: string, rest: string)
    requires !Contains(a, MemorySep)
    ensures forall q: nat :: q < |a| ==> !OccursAt(a + MemorySep + rest, MemorySep, q)
  {
    var s := a + MemorySep + rest;
    forall q: nat | q < |a| ensures !OccursAt(s, MemorySep, q) {
      if q + 2 <= |a| {
        assert s[q..q + 2] == a[q..q + 2];
        assert !OccursAt(a, MemorySep, q);
      } else {
        assert s[q + 1] == ',';
      }
    }
  }

  /**
   Completeness: whenever the stripped output is three separator-free
   fields joined by `", "`, the parse returns exactly those fields.
   */
  lemma ParseMemoryComplete(out: string, m: MemoryInfo)
    requires Strip(out) == FormatMemory(m)
    requires !Contains(m.total, MemorySep) && !Contains(m.used, MemorySep) && !Contains(m.free, MemorySep)
    ensures ParseMemory(out) == Some(m)
  {
    SplitMemoryLine(m);
    var parts := Split(Strip(out), MemorySep);
    assert parts == [m.total, m.used, m.free];
  }

  /** A line of three separator-free fields splits back into them. */
  lemma SplitMemoryLine(m: MemoryInfo)
    requires !Contains(m.total, MemorySep) && !Contains(m.used, MemorySep) && !Contains(m.free, MemorySep)
    ensures Split(FormatMemory(m), MemorySep) == [m.total, m.used, m.free]
  {
    var tail := m.used + MemorySep + m.free;
    assert Split(tail, MemorySep) == [m.used, m.free] by {
      SplitFields(m.used, m.free);
      SplitNone(m.free, MemorySep);
    }
    assert FormatMemory(m) == m.total + MemorySep + tail;
    SplitFields(m.total, tail);
  }

  /** Splitting `a + ", " + rest` cuts off `a` when `a` holds no `", "`. */
  lemma SplitFields(a: string, rest: string)
    requires !Contains(a, MemorySep)
    ensures Split(a + MemorySep + rest, MemorySep) == [a] + Split(rest, MemorySep)
  {
    NoSeparatorBefore(a, rest);
    SplitFirst(a, MemorySep, rest);
  }

  /**
   Round trip: a memory line printed from three separator-free fields, with
   no whitespace at its two ends, parses back to the same fields.
   */
  lemma MemoryRoundTrip(m: MemoryInfo)
    requires !Contains(m.total, MemorySep) && !Contains(m.used, MemorySep) && !Contains(m.free, MemorySep)
    requires |m.total| == 0 || !IsSpace(m.total[0])
    requires |m.free| > 0 && !IsSpace(m.free[|m.free| - 1])
    ensures ParseMemory(FormatMemory(m)) == Some(m)
  {
    var s := FormatMemory(m);
    assert s[|s| - 1] == m.free[|m.free| - 1];
    assert |m.total| == 0 ==> s[0] == ',';
    assert |m.total| > 0 ==> s[0] == m.total[0];
    StripTrimmed(s);
    ParseMemoryComplete(s, m);
  }

  /** `get_gpu_info`: what is known about the GPU after the three queries. */
  datatype GpuInfo = GpuInfo(name: Option<string>, cuda: Option<string>, memory: Option<MemoryInfo>)

  /**
   `get_gpu_info`: the name, CUDA and memory queries run in that order; the
   first one that raises ends the function with whatever was set so far.
   A query that exits non-zero only leaves its own field unset.
   */
  function GetGpuInfo(nameProbe: Probe, cudaProbe: Probe, memoryProbe: Probe): (r: GpuInfo)
    ensures nameProbe.Raised? ==> r == GpuInfo(None, None, None)
    ensures cudaProbe.Raised? ==> r.cuda.None? && r.memory.None?
    ensures r.name == (if nameProbe.Raised? then None else QueryValue(nameProbe))
    ensures !nameProbe.Raised? ==> r.cuda == (if cudaProbe.Raised? then None else QueryValue(cudaProbe))
    ensures r.memory.Some? <==>
      && !nameProbe.Raised? && !cudaProbe.Raised? && SmiAvailable(memoryProbe)
      && ParseMemory(memoryProbe.stdout).Some?
    ensures r.memory.Some? ==> Strip(memoryProbe.stdout) == FormatMemory(r.memory.value)
  {
    if nameProbe.Raised? then GpuInfo(None, None, None)
    else
      var name := QueryValue(nameProbe);
      if cudaProbe.Raised? then GpuInfo(name, None, None)
      else
        var cuda := QueryValue(cudaProbe);
        if memoryProbe.Raised? || memoryProbe.exitCode != 0 then GpuInfo(name, cuda, None)
        else GpuInfo(name, cuda, ParseMemory(memoryProbe.stdout))
  }

  /**
   Round trip: when the three queries print a name, a CUDA version and a
   memory line, each followed by whitespace (the trailing newline), the
   info holds exactly those values.
   */
  lemma GpuInfoRoundTrip(name: string, cuda: string, m: MemoryInfo, nl: string)
    requires Runs.All(nl, IsSpace)
    requires |name| == 0 || (!IsSpace(name[0]) && !IsSpace(name[|name| - 1]))
    requires |cuda| == 0 || (!IsSpace(cuda[0]) && !IsSpace(cuda[|cuda| - 1]))
    requires !Contains(m.total, MemorySep) && !Contains(m.used, MemorySep) && !Contains(m.free, MemorySep)
    requires |m.total| == 0 || !IsSpace(m.total[0])
    requires |m.free| > 0 && !IsSpace(m.free[|m.free| - 1])
    ensures GetGpuInfo(Completed(0, name + nl), Completed(0, cuda + nl), Completed(0, FormatMemory(m) + nl))
      == GpuInfo(Some(name), Some(cuda), Some(m))
  {
    assert [] + name == name && [] + cuda == cuda;
    QueryRoundTrip([], name, nl);
    QueryRoundTrip([], cuda, nl);
    var line := FormatMemory(m);
    assert line[|line| - 1] == m.free[|m.free| - 1];
    assert |m.total| == 0 ==> line[0] == ',';
    assert |m.total| > 0 ==> line[0] == m.total[0];
    assert [] + line == line;
    StripPadded([], line, nl);
    ParseMemoryComplete(line + nl, m);
  }

  // ---------------------------------------------------------------------
  // Latest published version
  // ---------------------------------------------------------------------

  /**
   `get_latest_driver_version`: `body` is the decoded `latest.txt`, or
   `None` when the request or the decoding failed. The version is the first
   whitespace-separated token of the stripped body.

   Independently of `split`: the result is `None` exactly when there is no
   body or it is all whitespace; otherwise it is the non-empty block of
   non-whitespace characters that starts right after the leading whitespace
   and ends at whitespace or at the end of the body.
   */
  function LatestVersion(body: Option<string>): (r: Option<string>)
    ensures r.None? <==> body.None? || Runs.All(body.value, IsSpace)
    ensures r.Some? ==>
      var b := body.value;
      var t := r.value;
      var i := Leading(b);
      && |t| > 0 && Runs.All(t, NotSpace)
      && i + |t| <= |b| && b[i..i + |t|] == t
      && (i + |t| == |b| || IsSpace(b[i + |t|]))
  {
    match body
    case None => None
    case Some(b) =>
      var parts := Words(Strip(b));
      FirstWord(b);
      if |parts| > 0 then Some(parts[0]) else None
  }

  lemma FirstWord(b: string)
    ensures |Words(Strip(b))| == 0 <==> Runs.All(b, IsSpace)
    ensures |Words(Strip(b))| > 0 ==>
      var t := Words(Strip(b))[0];
      var i := Leading(b);
      && i + |t| <= |b| && b[i..i + |t|] == t
      && (i + |t| == |b| || IsSpace(b[i + |t|]))
  {
    var s := Strip(b);
    var i := Leading(b);
    Runs.RunsEmptyIff(s, NotSpace);
    if |s| > 0 {
      assert !Runs.NoneOf(s, NotSpace) by { assert NotSpace(s[0]); }
      var n := Runs.Span(s, NotSpace);
      assert Words(s)[0] == s[..n];
      assert b[i..i + n] == s[..n];
      if n < |s| {
        assert b[i + n] == s[n];
      }
    } else {
      assert Runs.NoneOf(s, NotSpace);
    }
  }
}

=== FILE: orchestrator.dfy ===
/**
 The decision logic of `install_driver`, `_download_and_install_driver`,
 `install_fresh_driver`, `check_for_updates` and `run_check`.

 Every outside effect is an input: what `nvidia-smi` returned, the body of
 the latest-version index, the answers typed at the two prompts, whether
 the download succeeded and how the privileged installer ended. Each flow
 returns its result together with the effects it performed, in order, so
 the contracts can say when a prompt is shown and when the download and
 the privileged installer are reached.
 */
module Orchestrator {
  import opened Wrappers
  import opened Text
  import opened Version
  import opened DriverInfo
  import opened Artifact

  /** How `subprocess.run(['sudo', path], timeout=600)` ended. */
  datatype InstallOutcome =
    | Exited(code: int)   // the installer ran to completion with this exit code
    | TimedOut            // `subprocess.TimeoutExpired`
    | Failed              // any other exception, e.g. `sudo` not found

  /** The two questions the tool asks on standard input. */
  datatype Question =
    | OfferDownload       // "Would you like to download and install it?"
    | ConfirmInstall      // "Proceed with installation?" before `sudo`

  /** An outside effect of a flow. */
  datatype Event =
    | FetchLatest                              // GET of the latest-version index
    | Ask(question: Question, answer: string)  // a prompt, with the answer typed
    | Download(url: string, dest: string)      // `download_driver(url, dest)`
    | RunPrivileged(path: string)              // `sudo path`

  /** The results of every outside call a run of the tool makes. */
  datatype Oracles = Oracles(
    smi: Probe,                     // `nvidia-smi --version`
    versionProbe: Probe,            // the driver-version query of `check_for_updates`
    latestBody: Option<string>,     // decoded `latest.txt`, `None` on any failure
    offerAnswer: string,            // typed at "Would you like to download and install it?"
    confirmAnswer: string,          // typed at "Proceed with installation?"
    tempDir: string,                // the directory `tempfile.TemporaryDirectory` created
    downloadOk: bool,               // what `download_driver` returned
    install: InstallOutcome)        // how the privileged installer ended

  /** A flow's boolean result and its effects. */
  datatype Attempt = Attempt(ok: bool, events: seq<Event>)

  // ---------------------------------------------------------------------
  // Observations on effect sequences
  // ---------------------------------------------------------------------

  predicate Asked(events: seq<Event>, q: Question) {
    exists e :: e in events && e.Ask? && e.question == q
  }

  predicate Prompted(events: seq<Event>) {
    exists e :: e in events && e.Ask?
  }

  predicate Downloaded(events: seq<Event>) {
    exists e :: e in events && e.Download?
  }

  predicate RanPrivileged(events: seq<Event>) {
    exists e :: e in events && e.RunPrivileged?
  }

  predicate Fetched(events: seq<Event>) {
    FetchLatest in events
  }

  /** An affirmative answer to the installation prompt is among `events`. */
  predicate Consented(events: seq<Event>) {
    exists e :: e in events && e.Ask? && e.question == ConfirmInstall && IsYes(e.answer)
  }

  /** A download to `path` is among `events`. */
  predicate DownloadedTo(events: seq<Event>, path: string) {
    exists e :: e in events && e.Download? && e.dest == path
  }

  /**
   The consent rule of the tool: every privileged run comes right after its
   own affirmative answer to the installation prompt, so one answer allows
   one run, and after a download to exactly the path that is run.
   */
  ghost predicate Guarded(events: seq<Event>) {
    forall i :: 0 <= i < |events| && events[i].RunPrivileged? ==>
      && i > 0 && events[i - 1].Ask? && events[i - 1].question == ConfirmInstall && IsYes(events[i - 1].answer)
      && Consented(events[..i]) && DownloadedTo(events[..i], events[i].path)
  }

  /**
   Every download among `events` fetches the installer of `version` from
   its release URL into `tempDir`, and every privileged run runs that file.
   */
  predicate InstallsOnly(events: seq<Event>, version: string, tempDir: string) {
    forall e :: e in events ==>
      && (e.Download? ==> e == Download(DownloadUrl(version), DriverPath(tempDir, version)))
      && (e.RunPrivileged? ==> e == RunPrivileged(DriverPath(tempDir, version)))
  }

  // ---------------------------------------------------------------------
  // The flows
  // ---------------------------------------------------------------------

  /**
   `install_driver(path)`: asks for confirmation and runs `sudo path` only
   when the stripped, lower-cased answer is `yes`. It reports success only
   when the installer exited with 0; a decline, a non-zero exit, a timeout
   and any other error all give `false`.
   */
  function InstallDriver(path: string, answer: string, outcome: InstallOutcome): (r: Attempt)
    ensures |r.events| > 0 && r.events[0] == Ask(ConfirmInstall, answer)
    ensures |r.events| == (if IsYes(answer) then 2 else 1)
    ensures RanPrivileged(r.events) <==> IsYes(answer)
    ensures forall i :: 0 <= i < |r.events| && r.events[i].RunPrivileged? ==> r.events[i].path == path
    ensures r.ok <==> IsYes(answer) && outcome == Exited(0)
    ensures !Downloaded(r.events) && !Fetched(r.events) && !Asked(r.events, OfferDownload)
  {
    if !IsYes(answer) then Attempt(false, [Ask(ConfirmInstall, answer)])
    else
      var events := [Ask(ConfirmInstall, answer), RunPrivileged(path)];
      assert events[1] in events;
      Attempt(InstallSucceeded(outcome), events)
  }

  /**
   What `install_driver` reports once `sudo` was started: success only for
   exit code 0; a non-zero exit, a timeout and any other error are failures.
   */
  function InstallSucceeded(outcome: InstallOutcome): (ok: bool)
    ensures ok <==> outcome == Exited(0)
  {
    match outcome
    case Exited(code) => code == 0
    case TimedOut => false
    case Failed => false
  }

  /**
   `_download_and_install_driver(version)`: downloads the installer of
   `version` from its release URL into the temporary directory; only a
   successful download leads on to `install_driver` for that file.
   */
  function DownloadAndInstall(version: string, o: Oracles): (r: Attempt)
    ensures |r.events| > 0 && r.events[0] == Download(DownloadUrl(version), DriverPath(o.tempDir, version))
    ensures r.ok <==> o.downloadOk && IsYes(o.confirmAnswer) && o.install == Exited(0)
    ensures Guarded(r.events)
    ensures InstallsOnly(r.events, version, o.tempDir)
  {
    var path := DriverPath(o.tempDir, version);
    var download := [Download(DownloadUrl(version), path)];
    if !o.downloadOk then
      assert Guarded(download) by { assert !download[0].RunPrivileged?; }
      Attempt(false, download)
    else
      var i := InstallDriver(path, o.confirmAnswer, o.install);
      DownloadThenInstallGuarded(DownloadUrl(version), path, o.confirmAnswer, o.install);
      Attempt(i.ok, download + i.events)
  }

  /** A download followed by `install_driver` on the downloaded file obeys the consent rule. */
  lemma DownloadThenInstallGuarded(url: string, path: string, answer: string, outcome: InstallOutcome)
    ensures Guarded([Download(url, path)] + InstallDriver(path, answer, outcome).events)
  {
    var events := [Download(url, path)] + InstallDriver(path, answer, outcome).events;
    if IsYes(answer) {
      assert events == [Download(url, path), Ask(ConfirmInstall, answer), RunPrivileged(path)];
      ConfirmedRunGuarded(url, path, answer);
    } else {
      assert events == [Download(url, path), Ask(ConfirmInstall, answer)];
    }
  }

  /** Download, an affirmative confirmation, then the privileged run of the downloaded file. */
  lemma ConfirmedRunGuarded(url: string, path: string, answer: string)
    requires IsYes(answer)
    ensures Guarded([Download(url, path), Ask(ConfirmInstall, answer), RunPrivileged(path)])
  {
    var events := [Download(url, path), Ask(ConfirmInstall, answer), RunPrivileged(path)];
    var before := events[..2];
    assert before == [Download(url, path), Ask(ConfirmInstall, answer)];
    assert Consented(before) by { assert before[1] in before; }
    assert DownloadedTo(before, path) by { assert before[0] in before; }
  }

  /**
   The offer both flows make once they know which version to install:
   "Would you like to download and install it?". Only an affirmative
   answer leads on to `_download_and_install_driver`; a decline returns
   `false` without any download.
   */
  function OfferInstall(version: string, o: Oracles): (r: Attempt)
    ensures |r.events| > 0 && r.events[0] == Ask(OfferDownload, o.offerAnswer)
    ensures r.ok <==> IsYes(o.offerAnswer) && o.downloadOk && IsYes(o.confirmAnswer) && o.install == Exited(0)
    ensures Guarded(r.events)
    ensures InstallsOnly(r.events, version, o.tempDir)
  {
    var asked := [Ask(OfferDownload, o.offerAnswer)];
    if !IsYes(o.offerAnswer) then Attempt(false, asked)
    else
      var d := DownloadAndInstall(version, o);
      PrefixKeeps(asked, d.events);
      PrefixInstallsOnly(asked, d.events, version, o.tempDir);
      Attempt(d.ok, asked + d.events)
  }

  /**
   `install_fresh_driver`: fetches the latest version; without one it gives
   up before any prompt. Otherwise it makes the offer for that version.
   */
  function InstallFresh(o: Oracles): (r: Attempt)
    ensures |r.events| > 0 && r.events[0] == FetchLatest
    ensures !Truthy(LatestVersion(o.latestBody)) ==> !r.ok && r.events == [FetchLatest]
    ensures r.ok <==>
      && Truthy(LatestVersion(o.latestBody)) && IsYes(o.offerAnswer)
      && o.downloadOk && IsYes(o.confirmAnswer) && o.install == Exited(0)
    ensures Guarded(r.events)
    ensures Truthy(LatestVersion(o.latestBody)) ==>
      InstallsOnly(r.events, LatestVersion(o.latestBody).value, o.tempDir)
  {
    var latest := LatestVersion(o.latestBody);
    if !Truthy(latest) then Attempt(false, [FetchLatest])
    else
      var offer := OfferInstall(latest.value, o);
      FetchThenOffer(latest.value, o);
      Attempt(offer.ok, [FetchLatest] + offer.events)
  }

  /**
   A fetch followed by the offer, as both `install_fresh_driver` and
   `check_for_updates` do once the latest version is known, keeps the
   consent rule and installs only the offered version.
   */
  lemma FetchThenOffer(version: string, o: Oracles)
    ensures Guarded([FetchLatest] + OfferInstall(version, o).events)
    ensures InstallsOnly([FetchLatest] + OfferInstall(version, o).events, version, o.tempDir)
  {
    var offer := OfferInstall(version, o);
    PrefixKeeps([FetchLatest], offer.events);
    PrefixInstallsOnly([FetchLatest], offer.events, version, o.tempDir);
  }

  /** How `check_for_updates` ended. */
  datatype UpdateStatus =
    | CurrentUnknown          // no installed version could be read
    | LatestUnknown           // the latest version could not be fetched
    | AheadOfLatest           // the installed driver is newer than the latest release
    | UpToDate                // the installed driver is the latest release
    | Declined                // a newer release exists and the offer was declined
    | Attempted(ok: bool)     // a newer release was downloaded and installed, or not

  datatype Update = Update(status: UpdateStatus, events: seq<Event>)

  /**
   `check_for_updates`: reads the installed version and stops at once,
   before any request, when it is unknown or empty; then fetches the latest
   version and stops when that is unknown. Only a latest release strictly
   newer than the installed one (comparison 1) leads to the offer, and only
   an affirmative answer to the offer leads to the download.
   */
  function CheckForUpdates(o: Oracles): (r: Update)
    ensures !Truthy(QueryValue(o.versionProbe)) ==> r.status == CurrentUnknown && r.events == []
    ensures Truthy(QueryValue(o.versionProbe)) ==> |r.events| > 0 && r.events[0] == FetchLatest
    ensures Truthy(QueryValue(o.versionProbe)) && !Truthy(LatestVersion(o.latestBody)) ==>
      r.status == LatestUnknown && r.events == [FetchLatest]
    ensures Guarded(r.events)
    ensures Truthy(LatestVersion(o.latestBody)) ==>
      InstallsOnly(r.events, LatestVersion(o.latestBody).value, o.tempDir)
  {
    var current := QueryValue(o.versionProbe);
    if !Truthy(current) then Update(CurrentUnknown, [])
    else
      var latest := LatestVersion(o.latestBody);
      if !Truthy(latest) then Update(LatestUnknown, [FetchLatest])
      else
        var comparison := CompareVersions(current.value, latest.value);
        if comparison < 0 then Update(AheadOfLatest, [FetchLatest])
        else if comparison == 0 then Update(UpToDate, [FetchLatest])
        else
          var offer := OfferInstall(latest.value, o);
          FetchThenOffer(latest.value, o);
          Update(if IsYes(o.offerAnswer) then Attempted(offer.ok) else Declined, [FetchLatest] + offer.events)
  }

  /** What `run_check` returns and the effects it performed. */
  datatype Exit = Exit(code: int, events: seq<Event>)

  /**
   `run_check`: without a working `nvidia-smi` it offers a fresh install and
   exits with 1 exactly when that did not succeed; with a driver it checks
   for updates unless told to skip, and exits with 0 whatever happens.
   */
  function RunCheck(o: Oracles, skipUpdateCheck: bool): (r: Exit)
    ensures r.code == 0 || r.code == 1
    ensures r.code == 1 <==> !SmiAvailable(o.smi) && !InstallFresh(o).ok
    ensures !SmiAvailable(o.smi) ==> r.events == InstallFresh(o).events
    ensures SmiAvailable(o.smi) && skipUpdateCheck ==> r.events == []
    ensures SmiAvailable(o.smi) && !skipUpdateCheck ==> r.events == CheckForUpdates(o).events
    ensures Guarded(r.events)
    ensures Truthy(LatestVersion(o.latestBody)) ==>
      InstallsOnly(r.events, LatestVersion(o.latestBody).value, o.tempDir)
  {
    if !SmiAvailable(o.smi) then
      var attempt := InstallFresh(o);
      Exit(if attempt.ok then 0 else 1, attempt.events)
    else if skipUpdateCheck then Exit(0, [])
    else Exit(0, CheckForUpdates(o).events)
  }

  // ---------------------------------------------------------------------
  // Which effects each flow reaches
  // ---------------------------------------------------------------------

  /**
   The download always happens; the installation prompt is reached exactly
   when the download succeeded, and the privileged installer exactly when
   that prompt was answered `yes`.
   */
  lemma DownloadAndInstallEffects(version: string, o: Oracles)
    ensures var r := DownloadAndInstall(version, o);
      && Downloaded(r.events)
      && (Asked(r.events, ConfirmInstall) <==> o.downloadOk)
      && (RanPrivileged(r.events) <==> o.downloadOk && IsYes(o.confirmAnswer))
      && !Fetched(r.events) && !Asked(r.events, OfferDownload)
  {
    var r := DownloadAndInstall(version, o);
    assert r.events[0] in r.events;
    if o.downloadOk {
      var path := DriverPath(o.tempDir, version);
      var i := InstallDriver(path, o.confirmAnswer, o.install);
      assert r.events == [r.events[0]] + i.events;
      assert i.events[0] in i.events;
      if RanPrivileged(i.events) {
        var e :| e in i.events && e.RunPrivileged?;
        assert e in r.events;
      }
    }
  }

  /**
   The offer is always shown; the download happens exactly when it was
   accepted, and the privileged installer runs exactly when, in addition,
   the download succeeded and the installation prompt was answered `yes`.
   */
  lemma OfferInstallEffects(version: string, o: Oracles)
    ensures var r := OfferInstall(version, o);
      && Asked(r.events, OfferDownload)
      && (Downloaded(r.events) <==> IsYes(o.offerAnswer))
      && (Asked(r.events, ConfirmInstall) <==> IsYes(o.offerAnswer) && o.downloadOk)
      && (RanPrivileged(r.events) <==> IsYes(o.offerAnswer) && o.downloadOk && IsYes(o.confirmAnswer))
  {
    var r := OfferInstall(version, o);
    assert r.events[0] in r.events;
    if IsYes(o.offerAnswer) {
      var d := DownloadAndInstall(version, o);
      DownloadAndInstallEffects(version, o);
      PrefixObservations([Ask(OfferDownload, o.offerAnswer)], d.events);
    }
  }

  /**
   A fetch followed by the offer, as both `install_fresh_driver` and
   `check_for_updates` do once the latest version is known: the same
   effects as the offer alone.
   */
  lemma FetchThenOfferEffects(version: string, o: Oracles)
    ensures var events := [FetchLatest] + OfferInstall(version, o).events;
      && Prompted(events) && Asked(events, OfferDownload)
      && (Downloaded(events) <==> IsYes(o.offerAnswer))
      && (Asked(events, ConfirmInstall) <==> IsYes(o.offerAnswer) && o.downloadOk)
      && (RanPrivileged(events) <==> IsYes(o.offerAnswer) && o.downloadOk && IsYes(o.confirmAnswer))
  {
    var offer := OfferInstall(version, o);
    OfferInstallEffects(version, o);
    PrefixObservations([FetchLatest], offer.events);
  }

  /**
   `install_fresh_driver` shows the offer exactly when the latest version
   is known, downloads exactly when the offer was accepted, and runs the
   privileged installer exactly when, in addition, the download succeeded
   and the installation prompt was answered `yes`.
   */
  lemma InstallFreshEffects(o: Oracles)
    ensures var r := InstallFresh(o);
      var known := Truthy(LatestVersion(o.latestBody));
      && (Asked(r.events, OfferDownload) <==> known)
      && (Downloaded(r.events) <==> known && IsYes(o.offerAnswer))
      && (Asked(r.events, ConfirmInstall) <==> known && IsYes(o.offerAnswer) && o.downloadOk)
      && (RanPrivileged(r.events) <==> known && IsYes(o.offerAnswer) && o.downloadOk && IsYes(o.confirmAnswer))
  {
    var latest := LatestVersion(o.latestBody);
    if Truthy(latest) {
      FetchThenOfferEffects(latest.value, o);
    }
  }

  /**
   `check_for_updates` prompts only when the latest release is strictly
   newer (comparison 1) than a known installed version, and downloads only
   when, in addition, the offer was accepted. In particular a comparison of
   0 or -1 means no prompt and no download.
   */
  lemma CheckForUpdatesEffects(o: Oracles)
    ensures var r := CheckForUpdates(o);
      var current := QueryValue(o.versionProbe);
      var latest := LatestVersion(o.latestBody);
      var newer := Truthy(current) && Truthy(latest) && CompareVersions(current.value, latest.value) == 1;
      && (Prompted(r.events) <==> newer)
      && (Downloaded(r.events) <==> newer && IsYes(o.offerAnswer))
      && (Asked(r.events, ConfirmInstall) <==> newer && IsYes(o.offerAnswer) && o.downloadOk)
      && (RanPrivileged(r.events) <==> newer && IsYes(o.offerAnswer) && o.downloadOk && IsYes(o.confirmAnswer))
  {
    var r := CheckForUpdates(o);
    var current := QueryValue(o.versionProbe);
    var latest := LatestVersion(o.latestBody);
    if Truthy(current) && Truthy(latest) && CompareVersions(current.value, latest.value) == 1 {
      assert r.events == [FetchLatest] + OfferInstall(latest.value, o).events;
      FetchThenOfferEffects(latest.value, o);
    } else {
      assert r.events == [] || r.events == [FetchLatest];
      assert !Prompted(r.events) && !Downloaded(r.events) && !RanPrivileged(r.events);
    }
  }

  /**
   How `check_for_updates` ends: ahead of or equal to the latest release
   exactly for comparisons -1 and 0, declined or attempted only for a newer
   release, and an attempt succeeds exactly when the download succeeded and
   the installer exited with 0 after an affirmative confirmation.
   */
  lemma CheckForUpdatesStatus(o: Oracles)
    ensures var r := CheckForUpdates(o);
      var current := QueryValue(o.versionProbe);
      var latest := LatestVersion(o.latestBody);
      var known := Truthy(current) && Truthy(latest);
      && (r.status == CurrentUnknown <==> !Truthy(current))
      && (r.status == LatestUnknown <==> Truthy(current) && !Truthy(latest))
      && (r.status == AheadOfLatest <==> known && CompareVersions(current.value, latest.value) == -1)
      && (r.status == UpToDate <==> known && CompareVersions(current.value, latest.value) == 0)
      && (r.status == Declined <==>
            known && CompareVersions(current.value, latest.value) == 1 && !IsYes(o.offerAnswer))
      && (r.status.Attempted? <==>
            known && CompareVersions(current.value, latest.value) == 1 && IsYes(o.offerAnswer))
      && (r.status.Attempted? ==>
            (r.status.ok <==> o.downloadOk && IsYes(o.confirmAnswer) && o.install == Exited(0)))
  {
  }

  // ---------------------------------------------------------------------
  // Effect sequences under a prefix
  // ---------------------------------------------------------------------

  /** Effects that are fetches or download offers. */
  predicate Preliminary(pre: seq<Event>) {
    forall k :: 0 <= k < |pre| ==> pre[k] == FetchLatest || (pre[k].Ask? && pre[k].question == OfferDownload)
  }

  /** Putting fetches and download offers in front keeps the consent rule. */
  lemma PrefixKeeps(pre: seq<Event>, post: seq<Event>)
    requires Preliminary(pre)
    requires Guarded(post)
    ensures Guarded(pre + post)
  {
    var s := pre + post;
    forall i | 0 <= i < |s| && s[i].RunPrivileged?
      ensures i > 0 && s[i - 1].Ask? && s[i - 1].question == ConfirmInstall && IsYes(s[i - 1].answer)
      ensures Consented(s[..i]) && DownloadedTo(s[..i], s[i].path)
    {
      assert i >= |pre| && s[i] == post[i - |pre|];
      PrefixKeepsAt(pre, post, i - |pre|);
    }
  }

  /** `PrefixKeeps` for the privileged run at index `j` of `post`. */
  lemma PrefixKeepsAt(pre: seq<Event>, post: seq<Event>, j: nat)
    requires Guarded(post)
    requires j < |post| && post[j].RunPrivileged?
    ensures var s, i := pre + post, |pre| + j;
      && s[i - 1].Ask? && s[i - 1].question == ConfirmInstall && IsYes(s[i - 1].answer)
      && Consented(s[..i]) && DownloadedTo(s[..i], post[j].path)
  {
    var s, i := pre + post, |pre| + j;
    assert j > 0 && s[i - 1] == post[j - 1];
    var c :| c in post[..j] && c.Ask? && c.question == ConfirmInstall && IsYes(c.answer);
    var d :| d in post[..j] && d.Download? && d.dest == post[j].path;
    InPrefixedSlice(pre, post, j, c);
    InPrefixedSlice(pre, post, j, d);
  }

  /** An effect among the first `j` of `post` is among the first `|pre| + j` of `pre + post`. */
  lemma InPrefixedSlice(pre: seq<Event>, post: seq<Event>, j: nat, e: Event)
    requires j <= |post| && e in post[..j]
    ensures e in (pre + post)[..|pre| + j]
  {
    assert (pre + post)[..|pre| + j] == pre + post[..j];
  }

  /** Putting fetches and download offers in front keeps every download and privileged run on `version`. */
  lemma PrefixInstallsOnly(pre: seq<Event>, post: seq<Event>, version: string, tempDir: string)
    requires Preliminary(pre)
    requires InstallsOnly(post, version, tempDir)
    ensures InstallsOnly(pre + post, version, tempDir)
  {
  }

  /** Putting fetches and download offers in front adds no download, installation prompt or privileged run. */
  lemma PrefixObservations(pre: seq<Event>, post: seq<Event>)
    requires Preliminary(pre)
    ensures Downloaded(pre + post) <==> Downloaded(post)
    ensures RanPrivileged(pre + post) <==> RanPrivileged(post)
    ensures Asked(pre + post, ConfirmInstall) <==> Asked(post, ConfirmInstall)
    ensures Asked(post, OfferDownload) ==> Asked(pre + post, OfferDownload)
    ensures Prompted(post) ==> Prompted(pre + post)
    ensures Prompted(pre + post) <==> Prompted(pre) || Prompted(post)
  {
    var s := pre + post;
    if Downloaded(s) {
      var e :| e in s && e.Download?;
      assert e in post;
    }
    if RanPrivileged(s) {
      var e :| e in s && e.RunPrivileged?;
      assert e in post;
    }
    if Asked(s, ConfirmInstall) {
      var e :| e in s && e.Ask? && e.question == ConfirmInstall;
      assert e in post;
    }
  }
}

=== FILE: runs.dfy ===
/**
 Maximal runs of characters that satisfy a predicate.

 Both `re.findall(r'\d+', v)` (runs of digits) and `str.split()` without
 arguments (runs of non-whitespace) return exactly this: the maximal blocks
 of consecutive characters of one class, left to right, with everything
 between them discarded.
 */
module Runs {

  /** Every character of `s` satisfies `p`. */
  predicate All(s: string, p: char -> bool) {
    forall i :: 0 <= i < |s| ==> p(s[i])
  }

  /** No character of `s` satisfies `p`. */
  predicate NoneOf(s: string, p: char -> bool) {
    forall i :: 0 <= i < |s| ==> !p(s[i])
  }

  /** Length of the longest prefix of `s` made of characters satisfying `p`. */
  function Span(s: string, p: char -> bool): (n: nat)
    ensures n <= |s|
    ensures All(s[..n], p)
    ensures n < |s| ==> !p(s[n])
  {
    if |s| == 0 || !p(s[0]) then 0
    else
      var n := 1 + Span(s[1..], p);
      assert s[..n] == [s[0]] + s[1..][..n - 1];
      n
  }

  /** The characters of `s` that satisfy `p`, in order. */
  function Filter(s: string, p: char -> bool): string {
    if |s| == 0 then ""
    else (if p(s[0]) then [s[0]] else "") + Filter(s[1..], p)
  }

  /** The concatenation of a sequence of strings. */
  function Concat(rs: seq<string>): string {
    if |rs| == 0 then "" else rs[0] + Concat(rs[1..])
  }

  /** The maximal runs of `p`-characters of `s`, in order. Every run is non-empty. */
  function Runs(s: string, p: char -> bool): (rs: seq<string>)
    ensures forall k :: 0 <= k < |rs| ==> |rs[k]| > 0 && All(rs[k], p)
    decreases |s|
  {
    if |s| == 0 then []
    else if !p(s[0]) then Runs(s[1..], p)
    else
      var n := Span(s, p);
      [s[..n]] + Runs(s[n..], p)
  }

  lemma {:induction false} FilterAppend(a: string, b: string, p: char -> bool)
    ensures Filter(a + b, p) == Filter(a, p) + Filter(b, p)
    decreases |a|
  {
    if |a| == 0 {
      assert a + b == b;
    } else {
      var ab := a + b;
      assert ab[0] == a[0];
      assert ab[1..] == a[1..] + b;
      FilterAppend(a[1..], b, p);
      assert Filter(ab, p) == (if p(a[0]) then [a[0]] else "") + Filter(a[1..] + b, p);
      assert Filter(a, p) == (if p(a[0]) then [a[0]] else "") + Filter(a[1..], p);
    }
  }

  lemma {:induction false} FilterAll(a: string, p: char -> bool)
    requires All(a, p)
    ensures Filter(a, p) == a
    decreases |a|
  {
    if |a| > 0 {
      FilterAll(a[1..], p);
    }
  }

  /** The runs hold exactly the `p`-characters of `s`, in their original order. */
  lemma {:induction false} RunsKeepContents(s: string, p: char -> bool)
    ensures Concat(Runs(s, p)) == Filter(s, p)
    decreases |s|
  {
    if |s| == 0 {
    } else if !p(s[0]) {
      RunsKeepContents(s[1..], p);
    } else {
      var n := Span(s, p);
      assert s == s[..n] + s[n..];
      RunsKeepContents(s[n..], p);
      FilterAppend(s[..n], s[n..], p);
      FilterAll(s[..n], p);
      var rs := Runs(s, p);
      assert rs == [s[..n]] + Runs(s[n..], p);
      assert rs[1..] == Runs(s[n..], p);
    }
  }

  /** There are no runs exactly when no character satisfies `p`. */
  lemma {:induction false} RunsEmptyIff(s: string, p: char -> bool)
    ensures |Runs(s, p)| == 0 <==> NoneOf(s, p)
    decreases |s|
  {
    if |s| > 0 && !p(s[0]) {
      RunsEmptyIff(s[1..], p);
      assert NoneOf(s, p) <==> NoneOf(s[1..], p) by {
        if NoneOf(s[1..], p) {
          forall i | 0 <= i < |s| ensures !p(s[i]) {
            if i > 0 { assert s[i] == s[1..][i - 1]; }
          }
        }
      }
    }
  }

  /**
   A run followed by a character outside the class is split off whole:
   the runs of `a + [c] + b` are `a` and then the runs of `b`.
   */
  lemma RunsCons(a: string, c: char, b: string, p: char -> bool)
    requires |a| > 0 && All(a, p) && !p(c)
    ensures Runs(a + [c] + b, p) == [a] + Runs(b, p)
  {
    var s := a + [c] + b;
    SpanPrefix(a, [c] + b, p);
    assert s == a + ([c] + b);
    assert s[|a|..] == [c] + b;
    assert s[..|a|] == a;
    assert ([c] + b)[1..] == b;
  }

  /** A whole string of `p`-characters is a single run. */
  lemma RunsSingle(a: string, p: char -> bool)
    requires |a| > 0 && All(a, p)
    ensures Runs(a, p) == [a]
  {
    SpanPrefix(a, "", p);
    assert a + "" == a;
    assert a[|a|..] == "";
  }

  /** A character outside the class is skipped. */
  lemma RunsSkip(c: char, b: string, p: char -> bool)
    requires !p(c)
    ensures Runs([c] + b, p) == Runs(b, p)
  {
    assert ([c] + b)[1..] == b;
  }

  /**
   The equations that make a splitting into runs the splitting into
   MAXIMAL runs: nothing in the empty string, a character outside the class
   is dropped, a run followed by a character outside the class is cut off
   whole, and a string of class characters is a single run.
   */
  ghost predicate MaximalRuns(f: string -> seq<string>, p: char -> bool) {
    && f("") == []
    && (forall c, b :: !p(c) ==> f([c] + b) == f(b))
    && (forall a, c, b :: |a| > 0 && All(a, p) && !p(c) ==> f(a + [c] + b) == [a] + f(b))
    && (forall a :: |a| > 0 && All(a, p) ==> f(a) == [a])
  }

  /** `Runs` satisfies the maximal-run equations. */
  lemma RunsAreMaximal(p: char -> bool)
    ensures MaximalRuns(s => Runs(s, p), p)
  {
    forall c, b | !p(c) ensures Runs([c] + b, p) == Runs(b, p) {
      RunsSkip(c, b, p);
    }
    forall a, c, b | |a| > 0 && All(a, p) && !p(c) ensures Runs(a + [c] + b, p) == [a] + Runs(b, p) {
      RunsCons(a, c, b, p);
    }
    forall a | |a| > 0 && All(a, p) ensures Runs(a, p) == [a] {
      RunsSingle(a, p);
    }
  }

  /**
   The maximal-run equations have one solution: every splitting that
   satisfies them is `Runs`. (Splitting into single characters, say,
   fails the third equation as soon as a run is two characters long.)
   */
  lemma {:induction false} RunsUnique(f: string -> seq<string>, p: char -> bool, s: string)
    requires MaximalRuns(f, p)
    ensures f(s) == Runs(s, p)
    decreases |s|
  {
    if |s| == 0 {
      assert s == "";
    } else if !p(s[0]) {
      assert s == [s[0]] + s[1..];
      RunsUnique(f, p, s[1..]);
    } else {
      var n := Span(s, p);
      if n == |s| {
        assert s[..n] == s;
        RunsSingle(s, p);
      } else {
        var a, c, b := s[..n], s[n], s[n + 1..];
        assert s == a + [c] + b;
        RunsUnique(f, p, b);
        RunsCons(a, c, b, p);
      }
    }
  }

  lemma {:induction false} SpanPrefix(a: string, b: string, p: char -> bool)
    requires All(a, p)
    requires |b| == 0 || !p(b[0])
    ensures Span(a + b, p) == |a|
    decreases |a|
  {
    if |a| == 0 {
      assert a + b == b;
    } else {
      assert (a + b)[1..] == a[1..] + b;
      SpanPrefix(a[1..], b, p);
    }
  }

  /**
   Runs depend only on which positions are in the class and on the
   characters at those positions: the characters outside the class can be
   replaced by any other characters outside the class.
   */
  lemma {:induction false} RunsIgnoreSeparators(s: string, t: string, p: char -> bool)
    requires |s| == |t|
    requires forall i :: 0 <= i < |s| ==> p(s[i]) == p(t[i])
    requires forall i :: 0 <= i < |s| && p(s[i]) ==> s[i] == t[i]
    ensures Runs(s, p) == Runs(t, p)
    decreases |s|
  {
    if |s| == 0 {
    } else if !p(s[0]) {
      RunsIgnoreSeparators(s[1..], t[1..], p);
    } else {
      var n := Span(s, p);
      SpanAgree(s, t, p);
      assert s[..n] == t[..n];
      RunsIgnoreSeparators(s[n..], t[n..], p);
    }
  }

  lemma {:induction false} SpanAgree(s: string, t: string, p: char -> bool)
    requires |s| == |t|
    requires forall i :: 0 <= i < |s| ==> p(s[i]) == p(t[i])
    ensures Span(s, p) == Span(t, p)
    decreases |s|
  {
    if |s| > 0 && p(s[0]) {
      SpanAgree(s[1..], t[1..], p);
    }
  }
}

=== FILE: text.dfy ===
/**
 The Python string operations the tool relies on: `str.isspace`,
 `str.strip()`, `str.lower()`, `str.split()` and `str.split(sep)`.
 */
module Text {
  import opened Wrappers
  import Runs

  /**
   Python's whitespace class (`str.isspace`, also used by argument-less
   `strip()` and `split()`): tab through carriage return, the four
   information separators, space, NEL, no-break space and the Unicode
   space separators.
   */
  predicate IsSpace(c: char) {
    || ('\t' <= c <= '\r')
    || ('\U{1C}' <= c <= '\U{1F}')
    || c == ' '
    || c == '\U{85}'
    || c == '\U{A0}'
    || c == '\U{1680}'
    || ('\U{2000}' <= c <= '\U{200A}')
    || c == '\U{2028}'
    || c == '\U{2029}'
    || c == '\U{202F}'
    || c == '\U{205F}'
    || c == '\U{3000}'
  }

  predicate NotSpace(c: char) {
    !IsSpace(c)
  }

  /** Number of leading whitespace characters of `s`. */
  function Leading(s: string): (n: nat)
    ensures n <= |s|
  {
    Runs.Span(s, IsSpace)
  }

  /** `s` without its trailing whitespace. */
  function TrimEnd(s: string): (r: string)
    ensures |r| <= |s|
    ensures r == s[..|r|]
    ensures forall k :: |r| <= k < |s| ==> IsSpace(s[k])
    ensures |r| > 0 ==> !IsSpace(r[|r| - 1])
  {
    if |s| == 0 || !IsSpace(s[|s| - 1]) then s
    else
      var r := TrimEnd(s[..|s| - 1]);
      assert s[..|s| - 1][..|r|] == s[..|r|];
      r
  }

  /**
   Python's `s.strip()`: the text of `s` between its leading and trailing
   whitespace. The result starts at `Leading(s)`, everything after it is
   whitespace, and it neither starts nor ends with whitespace.
   */
  function Strip(s: string): (r: string)
    ensures Leading(s) + |r| <= |s|
    ensures r == s[Leading(s)..Leading(s) + |r|]
    ensures forall k :: 0 <= k < Leading(s) ==> IsSpace(s[k])
    ensures forall k :: Leading(s) + |r| <= k < |s| ==> IsSpace(s[k])
    ensures |r| > 0 ==> !IsSpace(r[0]) && !IsSpace(r[|r| - 1])
    ensures |r| == 0 <==> Runs.All(s, IsSpace)
  {
    var i := Leading(s);
    assert Runs.All(s[..i], IsSpace);
    var r := TrimEnd(s[i..]);
    assert forall k :: 0 <= k < i ==> IsSpace(s[k]) by {
      forall k | 0 <= k < i ensures IsSpace(s[k]) { assert s[k] == s[..i][k]; }
    }
    assert forall k :: i + |r| <= k < |s| ==> IsSpace(s[k]) by {
      forall k | i + |r| <= k < |s| ensures IsSpace(s[k]) { assert s[k] == s[i..][k - i]; }
    }
    assert |r| > 0 ==> r[0] == s[i];
    r
  }

  /** A string that neither starts nor ends with whitespace is its own strip. */
  lemma StripTrimmed(s: string)
    requires |s| == 0 || (!IsSpace(s[0]) && !IsSpace(s[|s| - 1]))
    ensures Strip(s) == s
  {
    var r := Strip(s);
    if |s| > 0 {
      assert Leading(s) == 0;
      assert !IsSpace(s[|s| - 1]);
      assert |r| == |s|;
    }
  }

  /**
   Stripping removes exactly the whitespace padding: a text that neither
   starts nor ends with whitespace, padded on both sides with whitespace,
   strips back to itself.
   */
  lemma StripPadded(pre: string, v: string, post: string)
    requires Runs.All(pre, IsSpace) && Runs.All(post, IsSpace)
    requires |v| == 0 || (!IsSpace(v[0]) && !IsSpace(v[|v| - 1]))
    ensures Strip(pre + v + post) == v
  {
    if |v| == 0 {
      assert Runs.All(pre + v + post, IsSpace) by { AllSpaces(pre, v, post); }
    } else {
      StripPaddedWord(pre, v, post);
    }
  }

  lemma AllSpaces(pre: string, v: string, post: string)
    requires Runs.All(pre, IsSpace) && |v| == 0 && Runs.All(post, IsSpace)
    ensures Runs.All(pre + v + post, IsSpace)
  {
    var s := pre + v + post;
    forall k | 0 <= k < |s| ensures IsSpace(s[k]) {
      if k < |pre| { assert s[k] == pre[k]; } else { assert s[k] == post[k - |pre|]; }
    }
  }

  lemma StripPaddedWord(pre: string, v: string, post: string)
    requires Runs.All(pre, IsSpace) && Runs.All(post, IsSpace)
    requires |v| > 0 && !IsSpace(v[0]) && !IsSpace(v[|v| - 1])
    ensures Strip(pre + v + post) == v
  {
    var s := pre + v + post;
    var i := |pre|;
    assert Leading(s) == i by {
      assert s == pre + (v + post);
      Runs.SpanPrefix(pre, v + post, IsSpace);
    }
    assert !IsSpace(s[i + |v| - 1]) by { assert s[i + |v| - 1] == v[|v| - 1]; }
    assert forall k :: i + |v| <= k < |s| ==> IsSpace(s[k]) by {
      forall k | i + |v| <= k < |s| ensures IsSpace(s[k]) { assert s[k] == post[k - i - |v|]; }
    }
    var r := Strip(s);
    assert |r| == |v|;
    assert s[i..i + |v|] == v;
  }

  /** Python's `str.lower()` on ASCII letters; other characters are kept. */
  function LowerChar(c: char): char {
    if 'A' <= c <= 'Z' then (c as int + 32) as char else c
  }

  function Lower(s: string): (r: string)
    ensures |r| == |s|
    ensures forall i :: 0 <= i < |s| ==> r[i] == LowerChar(s[i])
  {
    seq(|s|, i requires 0 <= i < |s| => LowerChar(s[i]))
  }

  /** The confirmation test `answer.strip().lower() == 'yes'`. */
  predicate IsYes(answer: string) {
    Lower(Strip(answer)) == "yes"
  }

  /**
   An answer confirms exactly when, once its surrounding whitespace is
   removed, it is the three letters y, e, s in any mix of cases.
   */
  lemma IsYesIff(answer: string)
    ensures IsYes(answer) <==>
      var t := Strip(answer);
      |t| == 3 && t[0] in "yY" && t[1] in "eE" && t[2] in "sS"
  {
    var t := Strip(answer);
    if IsYes(answer) {
      assert Lower(t)[0] == 'y' && Lower(t)[1] == 'e' && Lower(t)[2] == 's';
    }
    if |t| == 3 && t[0] in "yY" && t[1] in "eE" && t[2] in "sS" {
      assert Lower(t) == "yes";
    }
  }

  /** Python's `s.split()`: the maximal runs of non-whitespace characters. */
  function Words(s: string): (ws: seq<string>)
    ensures forall k :: 0 <= k < |ws| ==> |ws[k]| > 0 && Runs.All(ws[k], NotSpace)
    ensures Runs.Concat(ws) == Runs.Filter(s, NotSpace)
  {
    Runs.RunsKeepContents(s, NotSpace);
    Runs.Runs(s, NotSpace)
  }

  /** `sep` occurs in `s` starting at index `i`. */
  predicate OccursAt(s: string, sep: string, i: nat) {
    i + |sep| <= |s| && s[i..i + |sep|] == sep
  }

  predicate Contains(s: string, sep: string) {
    exists i: nat | i <= |s| :: OccursAt(s, sep, i)
  }

  /** The leftmost occurrence of `sep` in `s` at or after `from`. */
  function FindFrom(s: string, sep: string, from: nat): (r: Option<nat>)
    requires |sep| > 0
    ensures r.Some? ==> from <= r.value && OccursAt(s, sep, r.value)
    ensures r.Some? ==> forall q: nat :: from <= q < r.value ==> !OccursAt(s, sep, q)
    ensures r.None? ==> forall q: nat :: from <= q ==> !OccursAt(s, sep, q)
    decreases |s| - from
  {
    if from + |sep| > |s| then None
    else if OccursAt(s, sep, from) then Some(from)
    else FindFrom(s, sep, from + 1)
  }

  /**
   Python's `s.split(sep)` for a non-empty separator: cut `s` at every
   occurrence of `sep`, scanning left to right without overlaps.
   */
  function Split(s: string, sep: string): (parts: seq<string>)
    requires |sep| > 0
    ensures |parts| > 0
    ensures Join(parts, sep) == s
    ensures forall k :: 0 <= k < |parts| ==> !Contains(parts[k], sep)
    decreases |s|
  {
    match FindFrom(s, sep, 0)
    case None => [s]
    case Some(i) =>
      var rest := Split(s[i + |sep|..], sep);
      var parts := [s[..i]] + rest;
      assert !Contains(s[..i], sep) by {
        forall q: nat | q <= i ensures !OccursAt(s[..i], sep, q) {
          if q + |sep| <= i {
            assert !OccursAt(s, sep, q);
            assert s[..i][q..q + |sep|] == s[q..q + |sep|];
          }
        }
      }
      assert parts[1..] == rest;
      assert s == s[..i] + sep + s[i + |sep|..];
      parts
  }

  /** Python's `sep.join(parts)`. */
  function Join(parts: seq<string>, sep: string): string {
    if |parts| == 0 then ""
    else if |parts| == 1 then parts[0]
    else parts[0] + sep + Join(parts[1..], sep)
  }

  /**
   When `sep` occurs first right after `a`, splitting `a + sep + b` cuts off
   `a` and goes on with `b`.
   */
  lemma SplitFirst(a: string, sep: string, b: string)
    requires |sep| > 0
    requires forall q: nat :: q < |a| ==> !OccursAt(a + sep + b, sep, q)
    ensures Split(a + sep + b, sep) == [a] + Split(b, sep)
  {
    var s := a + sep + b;
    assert OccursAt(s, sep, |a|) by { assert s[|a|..|a| + |sep|] == sep; }
    var f := FindFrom(s, sep, 0);
    assert f == Some(|a|);
    assert s[..|a|] == a;
    assert s[|a| + |sep|..] == b;
  }

  /** A string that does not contain `sep` splits into itself alone. */
  lemma SplitNone(s: string, sep: string)
    requires |sep| > 0 && !Contains(s, sep)
    ensures Split(s, sep) == [s]
  {
  }
}

=== FILE: version.dfy ===
/**
 `compare_versions`: a version string is read as the tuple of integers
 spelled by its maximal runs of decimal digits, and two versions are
 ordered as Python orders tuples.
 */
module Version {
  import Runs

  /** ASCII decimal digit (the model's reading of the regex class `\d`). */
  predicate IsDigit(c: char) {
    '0' <= c <= '9'
  }

  function DigitValue(c: char): (n: nat)
    requires IsDigit(c)
    ensures n < 10
  {
    c as int - '0' as int
  }

  /**
   Python's `int(d)` for a string of decimal digits. It is 0 exactly when
   every digit is `0`, the empty string included.
   */
  function Decimal(d: string): (n: nat)
    requires Runs.All(d, IsDigit)
    ensures n == 0 <==> forall i :: 0 <= i < |d| ==> d[i] == '0'
  {
    if |d| == 0 then 0
    else
      var init := d[..|d| - 1];
      assert Runs.All(init, IsDigit) by {
        forall i | 0 <= i < |init| ensures IsDigit(init[i]) { assert init[i] == d[i]; }
      }
      Decimal(init) * 10 + DigitValue(d[|d| - 1])
  }

  /** `re.findall(r'\d+', v)`: the maximal digit runs of `v`, in order. */
  function DigitRuns(v: string): (rs: seq<string>)
    ensures forall k :: 0 <= k < |rs| ==> |rs[k]| > 0 && Runs.All(rs[k], IsDigit)
    ensures Runs.Concat(rs) == Runs.Filter(v, IsDigit)
  {
    Runs.RunsKeepContents(v, IsDigit);
    Runs.Runs(v, IsDigit)
  }

  /** `tuple(map(int, rs))` for a sequence of digit runs. */
  function Values(rs: seq<string>): (t: seq<nat>)
    requires forall k :: 0 <= k < |rs| ==> Runs.All(rs[k], IsDigit)
    ensures |t| == |rs|
    ensures forall k :: 0 <= k < |rs| ==> t[k] == Decimal(rs[k])
  {
    if |rs| == 0 then [] else [Decimal(rs[0])] + Values(rs[1..])
  }

  /** `version_tuple(v)`: the integers spelled by the digit runs of `v`. */
  function VersionTuple(v: string): (t: seq<nat>)
    ensures |t| == |DigitRuns(v)|
    ensures forall k :: 0 <= k < |t| ==> t[k] == Decimal(DigitRuns(v)[k])
  {
    Values(DigitRuns(v))
  }

  /**
   CPython's default `sys.get_int_max_str_digits()`: `int()` of a digit
   string longer than this raises `ValueError`.
   */
  const IntMaxStrDigits: nat := 4300

  /** `version_tuple(v)` returns instead of raising `ValueError`. */
  predicate WithinLimit(v: string) {
    var rs := DigitRuns(v);
    forall k :: 0 <= k < |rs| ==> |rs[k]| <= IntMaxStrDigits
  }

  /** Python's `a < b` on tuples of integers. */
  predicate TupleLess(a: seq<nat>, b: seq<nat>) {
    if |a| == 0 then |b| > 0
    else if |b| == 0 then false
    else a[0] < b[0] || (a[0] == b[0] && TupleLess(a[1..], b[1..]))
  }

  /**
   Reference definition of the lexicographic order: `a` and `b` agree on
   their first `k` elements, and then either `a` has ended while `b` goes
   on, or `a[k] < b[k]`.
   */
  ghost predicate LexLessAt(a: seq<nat>, b: seq<nat>, k: nat) {
    && k <= |a| && k <= |b|
    && a[..k] == b[..k]
    && ((k == |a| && k < |b|) || (k < |a| && k < |b| && a[k] < b[k]))
  }

  /**
   `compare_versions(current, latest)`: 1 when `latest` is the larger
   tuple, 0 when they are equal, -1 when `current` is larger; 0 as well
   when either tuple cannot be built because `int()` refuses a digit run.
   */
  function CompareVersions(current: string, latest: string): (r: int)
    ensures r == 1 || r == 0 || r == -1
    ensures !WithinLimit(current) || !WithinLimit(latest) ==> r == 0
    ensures WithinLimit(current) && WithinLimit(latest) ==>
      && (r == 1 <==> TupleLess(VersionTuple(current), VersionTuple(latest)))
      && (r == 0 <==> VersionTuple(current) == VersionTuple(latest))
      && (r == -1 <==> TupleLess(VersionTuple(latest), VersionTuple(current)))
  {
    if !WithinLimit(current) || !WithinLimit(latest) then 0
    else
      var c := VersionTuple(current);
      var l := VersionTuple(latest);
      TupleTrichotomy(c, l);
      if TupleLess(c, l) then 1
      else if l == c then 0
      else -1
  }

  // ---------------------------------------------------------------------
  // The tuple order
  // ---------------------------------------------------------------------

  /** The recursive tuple order agrees with the reference definition. */
  lemma {:induction false} TupleLessIff(a: seq<nat>, b: seq<nat>)
    ensures TupleLess(a, b) <==> exists k: nat :: LexLessAt(a, b, k)
    decreases |a|
  {
    if TupleLess(a, b) {
      if |a| == 0 || a[0] < b[0] {
        assert LexLessAt(a, b, 0);
      } else {
        TupleLessIff(a[1..], b[1..]);
        var k: nat :| LexLessAt(a[1..], b[1..], k);
        assert a[..k + 1] == [a[0]] + a[1..][..k];
        assert b[..k + 1] == [b[0]] + b[1..][..k];
        assert LexLessAt(a, b, k + 1);
      }
    }
    if exists k: nat :: LexLessAt(a, b, k) {
      var k: nat :| LexLessAt(a, b, k);
      if k > 0 {
        assert a[0] == a[..k][0] == b[..k][0] == b[0];
        assert a[1..][..k - 1] == a[..k][1..];
        assert b[1..][..k - 1] == b[..k][1..];
        assert LexLessAt(a[1..], b[1..], k - 1);
        TupleLessIff(a[1..], b[1..]);
      }
    }
  }

  /** Exactly one of `a < b`, `a == b`, `b < a` holds. */
  lemma {:induction false} TupleTrichotomy(a: seq<nat>, b: seq<nat>)
    ensures TupleLess(a, b) || a == b || TupleLess(b, a)
    ensures !(TupleLess(a, b) && a == b)
    ensures !(TupleLess(a, b) && TupleLess(b, a))
    ensures !(TupleLess(b, a) && a == b)
    decreases |a|
  {
    if |a| > 0 && |b| > 0 {
      TupleTrichotomy(a[1..], b[1..]);
      if a[0] == b[0] && a[1..] == b[1..] {
        assert a == [a[0]] + a[1..] && b == [b[0]] + b[1..];
      }
    }
  }

  lemma {:induction false} TupleTransitive(a: seq<nat>, b: seq<nat>, c: seq<nat>)
    requires TupleLess(a, b) && TupleLess(b, c)
    ensures TupleLess(a, c)
    decreases |a|
  {
    if |a| > 0 && a[0] == b[0] && b[0] == c[0] {
      TupleTransitive(a[1..], b[1..], c[1..]);
    }
  }

  // ---------------------------------------------------------------------
  // Properties of compare_versions
  // ---------------------------------------------------------------------

  /**
   `compare_versions` returns 1 exactly when the tuple of `latest` is
   lexicographically larger (by the reference definition), -1 exactly when
   the tuple of `current` is, and 0 otherwise.
   */
  lemma CompareMatchesLexOrder(current: string, latest: string)
    requires WithinLimit(current) && WithinLimit(latest)
    ensures CompareVersions(current, latest) == 1 <==>
      exists k: nat :: LexLessAt(VersionTuple(current), VersionTuple(latest), k)
    ensures CompareVersions(current, latest) == -1 <==>
      exists k: nat :: LexLessAt(VersionTuple(latest), VersionTuple(current), k)
  {
    TupleLessIff(VersionTuple(current), VersionTuple(latest));
    TupleLessIff(VersionTuple(latest), VersionTuple(current));
  }

  lemma CompareReflexive(v: string)
    ensures CompareVersions(v, v) == 0
  {
  }

  lemma CompareAntisymmetric(a: string, b: string)
    ensures CompareVersions(a, b) == -CompareVersions(b, a)
  {
  }

  /** If `b` is newer than `a` and `c` newer than `b`, then `c` is newer than `a`. */
  lemma CompareTransitive(a: string, b: string, c: string)
    requires CompareVersions(a, b) == 1 && CompareVersions(b, c) == 1
    ensures CompareVersions(a, c) == 1
  {
    TupleTransitive(VersionTuple(a), VersionTuple(b), VersionTuple(c));
  }

  /** Two strings spelling the same integer tuple compare equal. */
  lemma CompareSameTuple(a: string, b: string)
    requires VersionTuple(a) == VersionTuple(b)
    ensures CompareVersions(a, b) == 0
  {
  }

  /** A leading zero does not change the integer a digit run spells. */
  lemma {:induction false} DecimalLeadingZero(d: string)
    requires Runs.All(d, IsDigit)
    ensures Runs.All("0" + d, IsDigit)
    ensures Decimal("0" + d) == Decimal(d)
    decreases |d|
  {
    if |d| > 0 {
      var z := "0" + d;
      assert z[..|z| - 1] == "0" + d[..|d| - 1];
      DecimalLeadingZero(d[..|d| - 1]);
    }
  }

  /**
   The non-digit characters are irrelevant: replacing any of them by other
   non-digit characters leaves the tuple, and so every comparison, unchanged.
   */
  lemma SeparatorsIgnored(s: string, t: string, other: string)
    requires |s| == |t|
    requires forall i :: 0 <= i < |s| ==> IsDigit(s[i]) == IsDigit(t[i])
    requires forall i :: 0 <= i < |s| && IsDigit(s[i]) ==> s[i] == t[i]
    ensures VersionTuple(s) == VersionTuple(t)
    ensures CompareVersions(s, other) == CompareVersions(t, other)
    ensures CompareVersions(other, s) == CompareVersions(other, t)
  {
    Runs.RunsIgnoreSeparators(s, t, IsDigit);
  }

  /** A string without digits spells the empty tuple. */
  lemma DigitFreeTuple(v: string)
    ensures VersionTuple(v) == [] <==> Runs.NoneOf(v, IsDigit)
  {
    Runs.RunsEmptyIff(v, IsDigit);
  }

  /**
   Two digit-free strings compare equal, but a digit-free string ranks
   below every string that contains a digit: there is no rule that makes a
   digit-free side compare equal.
   */
  lemma DigitFreeRanksLowest(plain: string, other: string)
    requires Runs.NoneOf(plain, IsDigit)
    ensures Runs.NoneOf(other, IsDigit) ==>
      CompareVersions(plain, other) == 0 && CompareVersions(other, plain) == 0
    ensures !Runs.NoneOf(other, IsDigit) && WithinLimit(other) ==>
      CompareVersions(plain, other) == 1 && CompareVersions(other, plain) == -1
  {
    DigitFreeTuple(plain);
    DigitFreeTuple(other);
  }
}

=== FILE: version_examples.dfy ===
/**
 Worked comparisons on concrete NVIDIA version strings.

 Each example names its strings as parameters pinned by a `requires`
 (`requires current == "580.105.08"`) instead of writing the literals in
 the `ensures`. With literals in the goal the verifier unfolds the
 recursive `Runs`, `Span` and `Values` on them eagerly and runs out of
 resources; with parameters the unfolding happens only where the helper
 lemmas below ask for it, one digit run at a time.
 */
module VersionExamples {
  import Runs
  import opened Version

  /** The tuple of a three-part version `a.b.c` (any single separator). */
  lemma ThreeRuns(a: string, b: string, c: string, sep: char)
    requires |a| > 0 && |b| > 0 && |c| > 0
    requires Runs.All(a, IsDigit) && Runs.All(b, IsDigit) && Runs.All(c, IsDigit)
    requires !IsDigit(sep)
    ensures DigitRuns(a + [sep] + b + [sep] + c) == [a, b, c]
  {
    Runs.RunsSingle(c, IsDigit);
    Runs.RunsCons(b, sep, c, IsDigit);
    assert a + [sep] + b + [sep] + c == a + [sep] + (b + [sep] + c);
    Runs.RunsCons(a, sep, b + [sep] + c, IsDigit);
  }

  lemma ValuesOfThree(a: string, b: string, c: string)
    requires Runs.All(a, IsDigit) && Runs.All(b, IsDigit) && Runs.All(c, IsDigit)
    ensures Values([a, b, c]) == [Decimal(a), Decimal(b), Decimal(c)]
  {
    assert [a, b, c][1..] == [b, c];
    assert [b, c][1..] == [c];
    assert Values([c]) == [Decimal(c)];
    assert Values([b, c]) == [Decimal(b), Decimal(c)];
  }

  /** The tuple and the limit check, read off known digit runs and their values. */
  lemma TupleOfRuns(v: string, a: string, b: string, c: string, x: nat, y: nat, z: nat)
    requires Runs.All(a, IsDigit) && Runs.All(b, IsDigit) && Runs.All(c, IsDigit)
    requires DigitRuns(v) == [a, b, c]
    requires Decimal(a) == x && Decimal(b) == y && Decimal(c) == z
    requires |a| <= IntMaxStrDigits && |b| <= IntMaxStrDigits && |c| <= IntMaxStrDigits
    ensures VersionTuple(v) == [x, y, z]
    ensures WithinLimit(v)
  {
    ValuesOfThree(a, b, c);
  }

  /** `int()` of a digit string, digit by digit. */
  lemma DecimalSpelled(d: string)
    requires 1 <= |d| <= 3 && Runs.All(d, IsDigit)
    ensures |d| == 1 ==> Decimal(d) == DigitValue(d[0])
    ensures |d| == 2 ==> Decimal(d) == 10 * DigitValue(d[0]) + DigitValue(d[1])
    ensures |d| == 3 ==> Decimal(d) == 100 * DigitValue(d[0]) + 10 * DigitValue(d[1]) + DigitValue(d[2])
  {
    var init := d[..|d| - 1];
    if |d| > 1 {
      assert Runs.All(init, IsDigit) by {
        forall i | 0 <= i < |init| ensures IsDigit(init[i]) { assert init[i] == d[i]; }
      }
      DecimalSpelled(init);
    }
  }

  lemma Tuple580_105_08(v: string)
    requires v == "580.105.08"
    ensures VersionTuple(v) == [580, 105, 8]
    ensures WithinLimit(v)
  {
    assert DigitRuns(v) == ["580", "105", "08"] by {
      assert v == "580" + ['.'] + "105" + ['.'] + "08";
      ThreeRuns("580", "105", "08", '.');
    }
    assert Decimal("580") == 580 by { DecimalSpelled("580"); }
    assert Decimal("105") == 105 by { DecimalSpelled("105"); }
    assert Decimal("08") == 8 by { DecimalSpelled("08"); }
    TupleOfRuns(v, "580", "105", "08", 580, 105, 8);
  }

  lemma Tuple580_110_00(v: string)
    requires v == "580.110.00"
    ensures VersionTuple(v) == [580, 110, 0]
    ensures WithinLimit(v)
  {
    assert DigitRuns(v) == ["580", "110", "00"] by {
      assert v == "580" + ['.'] + "110" + ['.'] + "00";
      ThreeRuns("580", "110", "00", '.');
    }
    assert Decimal("580") == 580 by { DecimalSpelled("580"); }
    assert Decimal("110") == 110 by { DecimalSpelled("110"); }
    assert Decimal("00") == 0 by { DecimalSpelled("00"); }
    TupleOfRuns(v, "580", "110", "00", 580, 110, 0);
  }

  lemma Tuple580_105_8Dashed(v: string)
    requires v == "580-105-8"
    ensures VersionTuple(v) == [580, 105, 8]
    ensures WithinLimit(v)
  {
    assert DigitRuns(v) == ["580", "105", "8"] by {
      assert v == "580" + ['-'] + "105" + ['-'] + "8";
      ThreeRuns("580", "105", "8", '-');
    }
    assert Decimal("580") == 580 by { DecimalSpelled("580"); }
    assert Decimal("105") == 105 by { DecimalSpelled("105"); }
    assert Decimal("8") == 8 by { DecimalSpelled("8"); }
    TupleOfRuns(v, "580", "105", "8", 580, 105, 8);
  }

  lemma TupleOne(v: string)
    requires v == "1"
    ensures VersionTuple(v) == [1]
    ensures WithinLimit(v)
  {
    Runs.RunsSingle(v, IsDigit);
    assert Decimal(v) == 1 by { DecimalSpelled(v); }
    var t := VersionTuple(v);
    assert t[0] == Decimal(v);
  }

  /** A newer minor number makes the latest release newer. */
  lemma ExampleNewerMinor(current: string, latest: string)
    requires current == "580.105.08" && latest == "580.110.00"
    ensures CompareVersions(current, latest) == 1
  {
    Tuple580_105_08(current);
    Tuple580_110_00(latest);
    var c: seq<nat> := [580, 105, 8];
    var l: seq<nat> := [580, 110, 0];
    assert c[1..] == [105, 8] && l[1..] == [110, 0];
    assert TupleLess(c, l);
  }

  /** Tuples are compared element by element: (1) ranks below (580, 105, 8). */
  lemma ExampleShorterButSmaller(current: string, latest: string)
    requires current == "580.105.08" && latest == "1"
    ensures CompareVersions(current, latest) == -1
  {
    Tuple580_105_08(current);
    TupleOne(latest);
  }

  /** Separators and leading zeros do not matter. */
  lemma ExampleFormattingIgnored(current: string, latest: string)
    requires current == "580.105.08" && latest == "580-105-8"
    ensures CompareVersions(current, latest) == 0
  {
    Tuple580_105_08(current);
    Tuple580_105_8Dashed(latest);
  }

  /** Two digit-free strings are equal versions. */
  lemma ExampleBothDigitFree(current: string, latest: string)
    requires current == "abc" && latest == "xyz"
    ensures CompareVersions(current, latest) == 0
  {
    DigitFreeRanksLowest(current, latest);
  }

  /** A digit-free current version ranks below any numbered release. */
  lemma ExampleDigitFreeCurrent(current: string, latest: string)
    requires current == "abc" && latest == "1"
    ensures CompareVersions(current, latest) == 1
  {
    TupleOne(latest);
    assert IsDigit(latest[0]);
    assert !Runs.NoneOf(latest, IsDigit);
    assert Runs.NoneOf(current, IsDigit);
    DigitFreeRanksLowest(current, latest);
  }
}

=== FILE: version_format.dfy ===
/**
 Writing an integer tuple back as a dotted version string. Reading the
 rendered string with `version_tuple` gives the tuple back, so every tuple
 is the reading of some version string and the reading loses nothing but
 formatting.
 */
module VersionFormat {
  import Runs
  import opened Version

  function DigitChar(n: nat): (c: char)
    requires n < 10
    ensures IsDigit(c) && DigitValue(c) == n
  {
    ('0' as int + n) as char
  }

  /** The decimal spelling of `n`, without leading zeros. */
  function DecimalString(n: nat): (d: string)
    ensures |d| > 0 && Runs.All(d, IsDigit)
    ensures Decimal(d) == n
    ensures |d| > 1 ==> d[0] != '0'
  {
    if n < 10 then [DigitChar(n)]
    else
      var init := DecimalString(n / 10);
      var d := init + [DigitChar(n % 10)];
      assert d[..|d| - 1] == init;
      d
  }

  /** The tuple written with `.` between its integers. */
  function Render(t: seq<nat>): string {
    if |t| == 0 then ""
    else if |t| == 1 then DecimalString(t[0])
    else DecimalString(t[0]) + "." + Render(t[1..])
  }

  lemma {:induction false} RenderRuns(t: seq<nat>)
    ensures |DigitRuns(Render(t))| == |t|
    ensures forall k :: 0 <= k < |t| ==> DigitRuns(Render(t))[k] == DecimalString(t[k])
    decreases |t|
  {
    if |t| == 1 {
      Runs.RunsSingle(DecimalString(t[0]), IsDigit);
    } else if |t| > 1 {
      RenderRuns(t[1..]);
      Runs.RunsCons(DecimalString(t[0]), '.', Render(t[1..]), IsDigit);
      assert DecimalString(t[0]) + "." + Render(t[1..]) == DecimalString(t[0]) + ['.'] + Render(t[1..]);
    }
  }

  /** Reading a rendered tuple gives the tuple back. */
  lemma RenderRoundTrip(t: seq<nat>)
    ensures VersionTuple(Render(t)) == t
  {
    RenderRuns(t);
  }

  /** Two renderings compare exactly as their tuples do. */
  lemma CompareRendered(a: seq<nat>, b: seq<nat>)
    requires WithinLimit(Render(a)) && WithinLimit(Render(b))
    ensures CompareVersions(Render(a), Render(b)) == 1 <==> TupleLess(a, b)
    ensures CompareVersions(Render(a), Render(b)) == 0 <==> a == b
  {
    RenderRoundTrip(a);
    RenderRoundTrip(b);
  }
}

=== FILE: wrappers.dfy ===
/** Optional values: the model's counterpart of a Python `Optional[...]` return. */
module Wrappers {

  datatype Option<+T> = None | Some(value: T)
}
